=== FILE: README.md ===
# I2PTunnelOutproxyRunner, modelled in Dafny

`I2PTunnelOutproxyRunner` relays bytes between a local client socket `s` and
an outproxy socket `i2ps`. On start, its runner thread writes the optional
initial data: `initialI2PData` to the outproxy (then a flush) and
`initialSocketData` to the client. It then starts two `StreamForwarder`
threads:

- **toI2P** copies `s`'s input to `i2ps`'s output and adds to `totalSent`;
- **fromI2P** copies `i2ps`'s input to `s`'s output and adds to `totalReceived`.

Each forwarder reads chunks of at most `NETWORK_BUFFER_SIZE` bytes and writes
each chunk whole. It stamps `lastActivityOn` when a chunk is not empty. It
flushes only when no more input is available before and after a short pause.

When a forwarder's read loop ends (end of stream or any exception), it:

1. releases its buffer;
2. closes its input;
3. closes its output, unless a narrow exception applies: this is the fromI2P
   direction, an `onTimeout` job is present and nothing was received;
4. sets the one-shot `finished` flag.

`errorOccurred` can also set `finished`. The runner thread waits for
`finished`. Then it runs `onTimeout` if the job is present and
`totalReceived <= 0`. Then `close` flushes both outputs and closes both inputs
and both sockets, each step in its own try block. Finally the `finally` block
closes both sockets once more.

## How the model is built

The model has four modules:

- `Streams` holds byte values and the two halves of a socket. An `Input` is the
  bytes consumed so far and whether it is open. An `Output` is the bytes
  written, how many of them a flush pushed through, and whether it is open.
- `Session` is the lifecycle as a state machine over a `Runner` snapshot. The
  three threads are atomic steps, and a schedule of `Action`s interleaves them
  in any order:
  - `Begin` is `run` up to the wait;
  - `Step` is one pass of a forwarder loop;
  - `Exit` is a forwarder's teardown;
  - `ErrorOccurred`;
  - `Complete` is `run` after the wait;
  - `Interrupt` is `run` leaving the wait by an `InterruptedException`.

  Whether a read, write, either `available()` call, flush or close returns
  normally, and what it returns, is an input to each step (`Tick`, `StartFaults`,
  `ExitFaults`, `CloseFaults`). The properties hold for every such outcome.
  What a step does when it returns normally follows `java.net.Socket`. Closing
  either stream of a socket closes the socket, and with it both its streams
  for every later read or write. The clock is an input as well.
  A ghost `trace` records flush and close attempts, runs of the onTimeout job
  and buffer releases, in order. `Inv` is the invariant every reachable state
  keeps.
- `Properties` proves three kinds of statement:
  - what one forwarder guarantees;
  - what the wake-up guarantees;
  - what every interleaving from a freshly constructed runner guarantees.

  One of these is a race between the two teardowns. The constructor's
  documentation (lines 68-69) promises that the job "will be run before
  closing s". Suppose a job is present and the toI2P forwarder ends first. Its
  `in.close()` closes `s`, so the job runs with the local socket already closed
  (`UploadEndClosesLocal`), and the promise is not kept. The properties about
  the job's access to the local output therefore assume that the toI2P
  forwarder has not torn down yet. A teardown is one atomic step here, so this
  stands for "has not begun its teardown" in the source.
- `Relay` is the class `OutproxyRunner`, with the runner's fields and one
  method per piece of code that changes them:
  - the constructor;
  - `UpdateActivity` and `ErrorOccurred`;
  - `Start`, `Wake`, `Close` and `CloseSockets`, for `run` and `close`;
  - `Forward` (the `while` loop of `StreamForwarder.run`), with `Iterate` and
    `Teardown`.

  Each method is proved to change the object exactly as the matching `Session`
  step changes the snapshot (`Model()`). The public methods also keep `Valid()`,
  which is `Session.Inv`.

All paths below are under `apps/i2ptunnel/java/src/net/i2p/i2ptunnel/`.

## Model

| member | source | states |
|---|---|---|
| Session.Init | apps/i2ptunnel/java/src/net/i2p/i2ptunnel/I2PTunnelOutproxyRunner.java:71-87 | A new runner holds the constructor's values: whether a job is present, both initial arrays and the start time. It has moved nothing: both counters are 0 and the trace is empty. It is not finished, `lastActivityOn` is -1, all four streams are open, and it satisfies the invariant. |
| Session.UpdateActivity | apps/i2ptunnel/java/src/net/i2p/i2ptunnel/I2PTunnelOutproxyRunner.java:109-111 | `lastActivityOn` becomes the clock's reading and nothing else changes. |
| Session.Pump | apps/i2ptunnel/java/src/net/i2p/i2ptunnel/I2PTunnelOutproxyRunner.java:276-299 | One loop pass changes the counter by exactly the number of bytes that reach the destination. Staying in the loop means one whole chunk was read and appended to the destination. A read of -1 or a failed read ends the loop and changes nothing else. A chunk read and written on open streams without error is appended to the destination, consumed from the source and counted, whatever `available()` and the flush do afterwards. A clean read on open streams keeps looping. A flush happens only when `available()` was 0 before the pause and at most 0 after it. An `available()` that throws ends the loop after the write and the count, with no flush. |
| Session.Step | apps/i2ptunnel/java/src/net/i2p/i2ptunnel/I2PTunnelOutproxyRunner.java:276-299 | A forwarder pass touches only its own direction: its counter, its input and its output. `lastActivityOn` changes only when a non-empty chunk was read and the counter grew, that is, after the write, and then it becomes that pass's time. `finished`, the phase, the trace and the sockets are unchanged. |
| Session.Retire | apps/i2ptunnel/java/src/net/i2p/i2ptunnel/I2PTunnelOutproxyRunner.java:325-339 | After teardown the input is closed unless its close threw. The output is closed unless its close threw or the onTimeout exception keeps it open. No byte or count changes. |
| Session.KeepsOutputOpen | apps/i2ptunnel/java/src/net/i2p/i2ptunnel/I2PTunnelOutproxyRunner.java:332 | The forwarder skips `out.close()` exactly when it is the fromI2P forwarder and the onTimeout job would run: a job is present and `totalReceived <= 0`. |
| Session.TeardownEvents | apps/i2ptunnel/java/src/net/i2p/i2ptunnel/I2PTunnelOutproxyRunner.java:319-339 | The teardown first gives the buffer back, and never runs the onTimeout job. |
| Session.Exit | apps/i2ptunnel/java/src/net/i2p/i2ptunnel/I2PTunnelOutproxyRunner.java:319-344 | A teardown happens only after the loop has ended. It sets `finished` and retires the direction as `Retire` says, and records the release and the close attempts. A close that does not throw closes the socket too: the source socket unless the input close threw, and the target socket unless the output close threw or the onTimeout exception skipped it. The other direction, the phase and `lastActivityOn` are unchanged. |
| Session.ErrorOccurred | apps/i2ptunnel/java/src/net/i2p/i2ptunnel/I2PTunnelOutproxyRunner.java:238-243 | `finished` becomes true and nothing else changes. |
| Session.InitialWrites | apps/i2ptunnel/java/src/net/i2p/i2ptunnel/I2PTunnelOutproxyRunner.java:131-138 | The initial writes succeed exactly when each present array meets an open output and its write does not throw, nor the I2P flush. On success each array is appended to its destination, and the I2P one is flushed. Open flags are unchanged. |
| Session.Begin | apps/i2ptunnel/java/src/net/i2p/i2ptunnel/I2PTunnelOutproxyRunner.java:125-151 | `run` acts only once. The initial data is not counted and stamps no activity. Both forwarders start, and the runner waits, exactly when the initial writes succeed. Otherwise no forwarder starts and only the `finally` closes are attempted. |
| Session.Attempt | apps/i2ptunnel/java/src/net/i2p/i2ptunnel/I2PTunnelOutproxyRunner.java:202-206 | A guarded step is recorded with its outcome. Whether it throws or not, it moves no byte and changes no counter or thread. |
| Session.Perform | apps/i2ptunnel/java/src/net/i2p/i2ptunnel/I2PTunnelOutproxyRunner.java:202-233 | A flush or close that does not throw moves no byte and changes no counter, thread, phase or trace. A flush pushes every byte written to its output through. A close marks the stream it names closed. No other stream half is flushed or closed, and a socket close leaves every stream half alone. It closes a socket exactly when it closes one of that socket's streams or the socket itself. A flush closes nothing. |
| Session.AttemptAll | apps/i2ptunnel/java/src/net/i2p/i2ptunnel/I2PTunnelOutproxyRunner.java:200-233 | A run of guarded steps records one attempt per step, in order, whatever throws. |
| Session.Finally | apps/i2ptunnel/java/src/net/i2p/i2ptunnel/I2PTunnelOutproxyRunner.java:181-196 | The `finally` block attempts to close `s` and then `i2ps`, and the runner is then done. |
| Session.JobThenClose | apps/i2ptunnel/java/src/net/i2p/i2ptunnel/I2PTunnelOutproxyRunner.java:155-166 | The job (when due) comes before the `close` attempts. A throwing job skips `close`. Neither moves a byte. |
| Session.Complete | apps/i2ptunnel/java/src/net/i2p/i2ptunnel/I2PTunnelOutproxyRunner.java:147-197 | Nothing happens before `finished`. After it, the runner is done and its trace grows by exactly the job (when due), the `close` attempts and the `finally` attempts. No byte moves. |
| Session.Interrupt | apps/i2ptunnel/java/src/net/i2p/i2ptunnel/I2PTunnelOutproxyRunner.java:147-169 | An interrupt outside the wait does nothing. In the wait it skips the job and `close`, runs only the `finally` closes, and the runner is done. No byte moves. |
| Session.Apply | apps/i2ptunnel/java/src/net/i2p/i2ptunnel/I2PTunnelOutproxyRunner.java:125-166 | No atomic step of any thread undoes progress: `finished` stays set, the counters never decrease, the trace only grows, a done runner stays done, a stamped `lastActivityOn` is never reset, and the constructor's values never change. |
| Session.Run | apps/i2ptunnel/java/src/net/i2p/i2ptunnel/I2PTunnelOutproxyRunner.java:125-166 | Over every interleaving these only move forward: `finished` never reverts, `totalSent` and `totalReceived` never decrease, the trace only grows, a done runner stays done, a stamped `lastActivityOn` never returns to -1, and the constructor's values never change. |
| Session.Steps | apps/i2ptunnel/java/src/net/i2p/i2ptunnel/I2PTunnelOutproxyRunner.java:276-299 | A forwarder running on its own over a sequence of reads touches only its own direction. `finished`, the phase, the trace and both sockets are unchanged, and its counter never decreases. |
| Properties.PumpKeepsAccounted | apps/i2ptunnel/java/src/net/i2p/i2ptunnel/I2PTunnelOutproxyRunner.java:276-283 | A loop pass keeps this accounting: the destination holds the initial data and then exactly the first `count` bytes read, in order. |
| Properties.CleanRunDelivers | apps/i2ptunnel/java/src/net/i2p/i2ptunnel/I2PTunnelOutproxyRunner.java:276-299 | Over any sequence of clean reads, the destination receives exactly the concatenation of the chunks, in read order. The counter grows by its length. The other direction is untouched. `lastActivityOn` ends as the time of the last non-empty chunk. |
| Properties.StepKeepsInv | apps/i2ptunnel/java/src/net/i2p/i2ptunnel/I2PTunnelOutproxyRunner.java:276-299 | A loop pass keeps the invariant. |
| Properties.ExitKeepsInv | apps/i2ptunnel/java/src/net/i2p/i2ptunnel/I2PTunnelOutproxyRunner.java:319-344 | A teardown keeps the invariant, in either direction. |
| Properties.UploadExitKeepsInv | apps/i2ptunnel/java/src/net/i2p/i2ptunnel/I2PTunnelOutproxyRunner.java:319-344 | The toI2P teardown keeps the invariant, although its `in.close()` may close `s`. |
| Properties.DownloadExitKeepsInv | apps/i2ptunnel/java/src/net/i2p/i2ptunnel/I2PTunnelOutproxyRunner.java:319-344 | The fromI2P teardown keeps the invariant. Its output stays open exactly when it was open and either the job is due or `out.close()` threw. |
| Properties.AttemptCloseInput | apps/i2ptunnel/java/src/net/i2p/i2ptunnel/I2PTunnelOutproxyRunner.java:325-330 | The forwarder's `in.close()`, if it does not throw, closes its own direction's input and the socket it reads, and nothing else. |
| Properties.AttemptCloseOutput | apps/i2ptunnel/java/src/net/i2p/i2ptunnel/I2PTunnelOutproxyRunner.java:331-339 | The forwarder's `out.close()`, if it does not throw, closes its own direction's output and the socket it writes, and nothing else. |
| Properties.TeardownSteps | apps/i2ptunnel/java/src/net/i2p/i2ptunnel/I2PTunnelOutproxyRunner.java:320-339 | The guarded steps of a teardown record the release, the input close and, unless skipped, the output close, in that order. |
| Properties.Retired | apps/i2ptunnel/java/src/net/i2p/i2ptunnel/I2PTunnelOutproxyRunner.java:340-344 | At the end of a teardown the forwarder thread is over and `finished` is set. |
| Properties.ExitAsAttempts | apps/i2ptunnel/java/src/net/i2p/i2ptunnel/I2PTunnelOutproxyRunner.java:319-344 | A teardown is its guarded steps in source order: release, close the input, then close the output unless the exception applies. Then the thread ends and `finished` is set. |
| Properties.UploadExitAsAttempts | apps/i2ptunnel/java/src/net/i2p/i2ptunnel/I2PTunnelOutproxyRunner.java:319-344 | `ExitAsAttempts` for the toI2P forwarder. |
| Properties.DownloadExitAsAttempts | apps/i2ptunnel/java/src/net/i2p/i2ptunnel/I2PTunnelOutproxyRunner.java:319-344 | `ExitAsAttempts` for the fromI2P forwarder. |
| Properties.CloseAsAttempts | apps/i2ptunnel/java/src/net/i2p/i2ptunnel/I2PTunnelOutproxyRunner.java:200-233 | Six guarded steps in the source's order are the whole of `close`. |
| Properties.BeginKeepsInv | apps/i2ptunnel/java/src/net/i2p/i2ptunnel/I2PTunnelOutproxyRunner.java:125-151 | `run` up to the wait keeps the invariant. |
| Properties.WakeEventsJobRuns | apps/i2ptunnel/java/src/net/i2p/i2ptunnel/I2PTunnelOutproxyRunner.java:155-166 | The wake-up records the onTimeout job once when it applies and never otherwise. |
| Properties.WokenKeepsInv | apps/i2ptunnel/java/src/net/i2p/i2ptunnel/I2PTunnelOutproxyRunner.java:155-197 | Any wake-up that moves no byte and records the wake-up events keeps the invariant. |
| Properties.CompleteKeepsInv | apps/i2ptunnel/java/src/net/i2p/i2ptunnel/I2PTunnelOutproxyRunner.java:147-197 | `run` after the wait keeps the invariant. |
| Properties.InterruptKeepsInv | apps/i2ptunnel/java/src/net/i2p/i2ptunnel/I2PTunnelOutproxyRunner.java:167-169 | An interrupted wait keeps the invariant. |
| Properties.ApplyKeepsInv | apps/i2ptunnel/java/src/net/i2p/i2ptunnel/I2PTunnelOutproxyRunner.java:125-166 | Every atomic step of every thread keeps the invariant. |
| Properties.RunKeepsInv | apps/i2ptunnel/java/src/net/i2p/i2ptunnel/I2PTunnelOutproxyRunner.java:125-166 | Every interleaving of steps keeps the invariant. |
| Properties.ReachableInv | apps/i2ptunnel/java/src/net/i2p/i2ptunnel/I2PTunnelOutproxyRunner.java:71-87 | Every state reachable from a newly constructed runner satisfies the invariant. |
| Properties.ForwardedInOrder | apps/i2ptunnel/java/src/net/i2p/i2ptunnel/I2PTunnelOutproxyRunner.java:276-283 | In every reachable state, each started direction's destination holds its initial data and then exactly the first `count` bytes read, in order. `count` stays between 0 and the bytes read. While looping, `count` is everything read. |
| Properties.ActivitySentinel | apps/i2ptunnel/java/src/net/i2p/i2ptunnel/I2PTunnelOutproxyRunner.java:52-53 | In every reachable state, `lastActivityOn` is -1 exactly when neither counter has moved. |
| Properties.TimeoutJobAtMostOnce | apps/i2ptunnel/java/src/net/i2p/i2ptunnel/I2PTunnelOutproxyRunner.java:155-163 | Over every interleaving, the onTimeout job runs at most once. It runs only if one is present, and only once the runner is done. |
| Properties.OutputOpenForTimeoutJob | apps/i2ptunnel/java/src/net/i2p/i2ptunnel/I2PTunnelOutproxyRunner.java:325-335 | With a job present, the runner waiting, nothing received, and the toI2P forwarder not yet in its teardown, the local socket and its output are still open. |
| Properties.JobMeansNothingForwarded | apps/i2ptunnel/java/src/net/i2p/i2ptunnel/I2PTunnelOutproxyRunner.java:276-283 | In every reachable state where the runner waits with the job due, the client's output holds exactly `initialSocketData`: nothing forwarded has reached it. |
| Properties.FinishedOnceAForwarderExits | apps/i2ptunnel/java/src/net/i2p/i2ptunnel/I2PTunnelOutproxyRunner.java:340-344 | Once either forwarder has torn down, `finished` is set. |
| Properties.TimeoutJobRunsOnce | apps/i2ptunnel/java/src/net/i2p/i2ptunnel/I2PTunnelOutproxyRunner.java:155-163 | After the wait the job runs once more if it is present and `totalReceived <= 0`, whatever `totalSent` is, and not at all otherwise. |
| Properties.TimeoutJobRunsFirst | apps/i2ptunnel/java/src/net/i2p/i2ptunnel/I2PTunnelOutproxyRunner.java:155-166 | When the job runs, it is the first thing after the wait, before any flush or close. Unless the toI2P forwarder has begun its teardown, the local output can still be written then. |
| Properties.WaitingFacts | apps/i2ptunnel/java/src/net/i2p/i2ptunnel/I2PTunnelOutproxyRunner.java:147-151 | While the runner waits, the job has not run yet. When the job is due and the toI2P forwarder has not begun its teardown, the local output is still writable. |
| Properties.WakeTrace | apps/i2ptunnel/java/src/net/i2p/i2ptunnel/I2PTunnelOutproxyRunner.java:155-163 | The wake-up events add one run of the job exactly when it applies, as the first new event. |
| Properties.CloseAttemptsEveryStep | apps/i2ptunnel/java/src/net/i2p/i2ptunnel/I2PTunnelOutproxyRunner.java:200-233 | The wake-up attempts flush out, flush i2pout, close in, close i2pin, close s and close i2ps in that order, whichever of them throw. Only a throwing job skips them. Then it attempts close s and close i2ps again. |
| Properties.WakeAttempts | apps/i2ptunnel/java/src/net/i2p/i2ptunnel/I2PTunnelOutproxyRunner.java:165-196 | The attempted steps among the wake-up events are the `close` order (unless the job threw), followed by the `finally` order. |
| Properties.InterruptSkipsJob | apps/i2ptunnel/java/src/net/i2p/i2ptunnel/I2PTunnelOutproxyRunner.java:147-197 | An interrupted wait never runs the onTimeout job. Its only attempted steps are the `finally` closes of `s` and `i2ps`, in that order. |
| Properties.AttemptAllSocket | apps/i2ptunnel/java/src/net/i2p/i2ptunnel/I2PTunnelOutproxyRunner.java:212-233 | A socket survives a run of guarded steps exactly when it was open and every step that would close it (its input close, its output close or its own close) threw. |
| Properties.CloseOrderCloses | apps/i2ptunnel/java/src/net/i2p/i2ptunnel/I2PTunnelOutproxyRunner.java:212-233 | Within `close`, the steps that close socket `s` (or `i2ps`) are exactly its input close and its socket close. |
| Properties.JobThenCloseSocket | apps/i2ptunnel/java/src/net/i2p/i2ptunnel/I2PTunnelOutproxyRunner.java:155-233 | After the job and `close`, a socket is still open exactly when it was open and either the job threw or both `close` steps on it threw. |
| Properties.FinallySocket | apps/i2ptunnel/java/src/net/i2p/i2ptunnel/I2PTunnelOutproxyRunner.java:181-196 | After the `finally` block, a socket is still open exactly when it was open and its close threw. |
| Properties.WakeClosesSockets | apps/i2ptunnel/java/src/net/i2p/i2ptunnel/I2PTunnelOutproxyRunner.java:181-196 | After the wake-up, a socket is still open exactly when it was open, `close` left it open, and its close in `finally` threw. `close` leaves it open when the job threw, or when both its input close and its socket close threw. Repeating a close is harmless. |
| Properties.CleanStart | apps/i2ptunnel/java/src/net/i2p/i2ptunnel/I2PTunnelOutproxyRunner.java:131-146 | If the initial writes do not throw, both forwarders start. At that point each destination holds exactly its initial data, nothing is counted and no activity is stamped. |
| Properties.CleanUploadDelivers | apps/i2ptunnel/java/src/net/i2p/i2ptunnel/I2PTunnelOutproxyRunner.java:276-299 | After a clean start and clean reads, the outproxy receives `initialI2PData` and then every chunk, in order. `totalSent` is the number of forwarded bytes and `totalReceived` stays 0. `lastActivityOn` is the time of the last non-empty chunk. |
| Properties.ZeroByteEnd | apps/i2ptunnel/java/src/net/i2p/i2ptunnel/I2PTunnelOutproxyRunner.java:319-344 | When the fromI2P forwarder reads -1 and tears down, it counts nothing. It closes its input and `i2ps` unless that close throws. It keeps its output and `s` open exactly under the onTimeout exception, or when the close throws. It sets `finished`. |
| Properties.WakeWithJobDue | apps/i2ptunnel/java/src/net/i2p/i2ptunnel/I2PTunnelOutproxyRunner.java:155-197 | With the job due and nothing failing, the job runs once and first. Every `close` step and both `finally` closes follow, and both sockets end closed. |
| Properties.RemoteClosesAtOnce | apps/i2ptunnel/java/src/net/i2p/i2ptunnel/I2PTunnelOutproxyRunner.java:155-166 | The outproxy closes at once while a job is set. Nothing is received, `i2ps` is closed, and `s` and the local output stay open. The job then runs exactly once before anything else is closed. Then both sockets close. |
| Properties.UploadEnd | apps/i2ptunnel/java/src/net/i2p/i2ptunnel/I2PTunnelOutproxyRunner.java:319-344 | When the toI2P forwarder reads -1 and tears down, it counts nothing. It closes `s` unless its input close throws, and `i2ps` unless its output close throws. It sets `finished`, and leaves the fromI2P direction untouched while the runner waits. |
| Properties.UploadEndClosesLocal | apps/i2ptunnel/java/src/net/i2p/i2ptunnel/I2PTunnelOutproxyRunner.java:325-330 | If the client's upload ends at once while a job is present, the toI2P teardown closes `s`. The runner then wakes with the job due but with the local output no longer writable, and the job still runs once. |
| Properties.AbortWakeUp | apps/i2ptunnel/java/src/net/i2p/i2ptunnel/I2PTunnelOutproxyRunner.java:238-243 | After `errorOccurred` with nothing received, the wake-up runs the job exactly when one is present. |
| Properties.ZeroByteWakeUp | apps/i2ptunnel/java/src/net/i2p/i2ptunnel/I2PTunnelOutproxyRunner.java:155-163 | After a zero-byte fromI2P stream, the wake-up runs the job exactly when one is present. |
| Properties.AbortLikeZeroByteEnd | apps/i2ptunnel/java/src/net/i2p/i2ptunnel/I2PTunnelOutproxyRunner.java:238-243 | `errorOccurred` before any byte moved leads to the same wake-up events as a zero-byte end of the fromI2P stream. |
| Relay.OutproxyRunner.constructor | apps/i2ptunnel/java/src/net/i2p/i2ptunnel/I2PTunnelOutproxyRunner.java:71-87 | The object starts as `Session.Init` and is valid. |
| Relay.OutproxyRunner.Forwarder | apps/i2ptunnel/java/src/net/i2p/i2ptunnel/I2PTunnelOutproxyRunner.java:245-251 | The fields of one forwarder are that direction's part of the model. |
| Relay.OutproxyRunner.IsOpen | apps/i2ptunnel/java/src/net/i2p/i2ptunnel/I2PTunnelOutproxyRunner.java:46-47 | The open flag of `s` or `i2ps` is that socket's part of the model. |
| Relay.OutproxyRunner.ShutSocket | apps/i2ptunnel/java/src/net/i2p/i2ptunnel/I2PTunnelOutproxyRunner.java:224-233 | A socket close moves the object as `Session.Shut`. |
| Relay.OutproxyRunner.UpdateActivity | apps/i2ptunnel/java/src/net/i2p/i2ptunnel/I2PTunnelOutproxyRunner.java:109-111 | `lastActivityOn` becomes the clock's reading and nothing else changes. |
| Relay.OutproxyRunner.ErrorOccurred | apps/i2ptunnel/java/src/net/i2p/i2ptunnel/I2PTunnelOutproxyRunner.java:238-243 | The object moves as `Session.ErrorOccurred` and stays valid. |
| Relay.OutproxyRunner.Try | apps/i2ptunnel/java/src/net/i2p/i2ptunnel/I2PTunnelOutproxyRunner.java:202-206 | One try block moves the object as `Session.Attempt`. |
| Relay.OutproxyRunner.Close | apps/i2ptunnel/java/src/net/i2p/i2ptunnel/I2PTunnelOutproxyRunner.java:200-233 | The six try blocks of `close` move the object as the six guarded steps of `CloseOrder`. |
| Relay.OutproxyRunner.CloseSockets | apps/i2ptunnel/java/src/net/i2p/i2ptunnel/I2PTunnelOutproxyRunner.java:181-196 | The `finally` block moves the object as `Session.Finally`. |
| Relay.OutproxyRunner.WriteInitialData | apps/i2ptunnel/java/src/net/i2p/i2ptunnel/I2PTunnelOutproxyRunner.java:131-138 | The initial writes produce `Session.InitialWrites` and change only the two outputs. |
| Relay.OutproxyRunner.Start | apps/i2ptunnel/java/src/net/i2p/i2ptunnel/I2PTunnelOutproxyRunner.java:125-151 | `run` up to the wait moves the object as `Session.Begin` and keeps it valid. |
| Relay.OutproxyRunner.Iterate | apps/i2ptunnel/java/src/net/i2p/i2ptunnel/I2PTunnelOutproxyRunner.java:277-298 | One pass of the loop body moves the object as `Session.Step`. |
| Relay.OutproxyRunner.ReleaseAndClose | apps/i2ptunnel/java/src/net/i2p/i2ptunnel/I2PTunnelOutproxyRunner.java:320-339 | The release and the two try blocks of the teardown are its guarded steps in order: the output close is skipped under the exception. |
| Relay.OutproxyRunner.MarkExited | apps/i2ptunnel/java/src/net/i2p/i2ptunnel/I2PTunnelOutproxyRunner.java:340-344 | The forwarder ends and `finished` is set, as `Retired` says. |
| Relay.OutproxyRunner.Teardown | apps/i2ptunnel/java/src/net/i2p/i2ptunnel/I2PTunnelOutproxyRunner.java:319-344 | The forwarder's `finally` block moves the object as `Session.Exit`. |
| Relay.OutproxyRunner.Forward | apps/i2ptunnel/java/src/net/i2p/i2ptunnel/I2PTunnelOutproxyRunner.java:264-346 | The forwarder loops until a read ends the loop or the reads run out; the result is the chunk-by-chunk `Session.Steps`. If the loop ended before the reads ran out, the forwarder left it on its own. The teardown follows. The object stays valid throughout. |
| Relay.OutproxyRunner.Wake | apps/i2ptunnel/java/src/net/i2p/i2ptunnel/I2PTunnelOutproxyRunner.java:152-197 | `run` after the wait moves the object as `Session.Complete` and keeps it valid. |
| Relay.OutproxyRunner.Interrupted | apps/i2ptunnel/java/src/net/i2p/i2ptunnel/I2PTunnelOutproxyRunner.java:147-197 | An interrupted wait moves the object as `Session.Interrupt` and keeps it valid. |

## Left out

- Real threads, `wait`/`notifyAll`, `synchronized` and `volatile` are left out. Each thread's step is atomic, and any interleaving of steps is allowed. The wait is the guard of `Complete`. One consequence: a loop pass writes and counts together, so a due job never finds forwarded bytes at the client (`JobMeansNothingForwarded`). In the source, fromI2P writes to `out` (line 278) before it adds to `totalReceived` (line 282). A wake-up after `errorOccurred` that reads the counter between the two runs the job after response bytes have reached the client. The model does not capture this. A second consequence: a teardown is atomic too, so the window between toI2P's `in.close()` (line 326), which closes `s`, and its `finished = true` (line 341) is not modelled. A runner woken in that window by the fromI2P forwarder or by `errorOccurred` runs the job with `s` already closed. This is why the properties about the job's access to the local output assume that toI2P has not begun its teardown. Likewise `Complete` is atomic, so the race the source notes at lines 222-223 between `close`'s flushes and its closes (data arriving in between) is not modelled.
- `Thread.join(30*1000)` at the end of `close`, and `Thread.sleep(I2PTunnel.PACKET_DELAY)` in the loop, are timing backstops. Only the two `available()` results around the sleep are modelled, as inputs.
- `ByteCache` is reduced to a "buffer released" event at teardown.
- Exceptions are not classified. Every exception in the loop ends it, and the teardown follows. Every exception during the initial writes goes to the `finally` block. Logging, thread names and the id counters are left out.
- `Clock.getInstance().now()` is a parameter of the constructor and of each loop pass.
- Getting the socket streams (`getSocketIn`, `getSocketOut`, `getInputStream`, `getOutputStream`) is assumed to succeed.
- The `BufferedInputStream` wrapping of `in` and the `InternalSocket` check are left out.
- `s` may be an `InternalSocket`, and `InternalSocket` is not part of this model. The model gives it the closing behaviour of `java.net.Socket`: closing either stream closes the socket. A stream's own open flag and its socket's flag are kept apart. A stream can be written only while both are open.
- `run`'s `InterruptedException` is modelled only where it can arise in the visible code, the wait (`Interrupt`). The ones from `t1.join` and `t2.join` at the end of `close` come after all six `close` steps and before the `finally` block, so `Complete` already covers them.
- A chunk is written whole or not at all. A partially completed `write` is not modelled.
- The onTimeout job is a single event. Its own effect (typically writing an error reply to `s`) is not modelled. Whether it throws is an input.
- `totalSent` and `totalReceived` are unbounded integers. Java's `long` overflow, after 2^63 bytes, is not modelled.
- `isFinished`, `getLastActivityOn` and `getStartedOn` are plain reads of the fields `finished`, `lastActivityOn` and `startedOn`.
- Relay.OutproxyRunner.Forward: the reads are a finite sequence. A forwarder still looping when the reads run out stays in its loop, with no teardown.
- The constructor's documentation (lines 68-69) says the job is run "if non-null and no data (except initial data) was sent or received", and "before closing s". The code tests only `totalReceived <= 0`, with a comment that it runs even if `totalSent > 0`. The model follows the code. The "before closing s" half is not kept when the toI2P teardown comes first (`UploadEndClosesLocal`, above).

=== FILE: properties.dfy ===
/** What the relay lifecycle guarantees, proved over the Session model: for one
    forwarder on its own, for the coordinator's wake-up, and for every
    interleaving of the three threads. */
module Properties {
  import opened Streams
  import opened Session

  // ---------------------------------------------------------------------------
  // One forwarder
  // ---------------------------------------------------------------------------

  /** A loop iteration keeps a direction's accounting: the destination holds the
      initial data and then exactly the first `count` bytes read. */
  lemma PumpKeepsAccounted(p: Pipe, readable: bool, writable: bool, t: Tick, initial: Bytes)
    requires Accounted(p, initial)
    ensures Accounted(Pump(p, readable, writable, t), initial)
  {
    var q := Pump(p, readable, writable, t);
    if p.thread == Looping && q.input.consumed != p.input.consumed {
      var b := t.read.bytes;
      assert q.input.consumed == p.input.consumed + b;
      assert p.input.consumed[..p.count] == p.input.consumed;
      if q.count == p.count {
        assert q.input.consumed[..q.count] == p.input.consumed;
      } else {
        assert q.input.consumed[..q.count] == q.input.consumed;
      }
    }
  }

  /** Steps over a schedule extended by one read is one more step. */
  lemma {:induction false} StepsSnoc(s: Runner, d: Direction, ticks: seq<Tick>, t: Tick)
    ensures Steps(s, d, ticks + [t]) == Step(Steps(s, d, ticks), d, t)
    decreases |ticks|
  {
    if ticks == [] {
      assert [] + [t] == [t];
    } else {
      assert (ticks + [t])[1..] == ticks[1..] + [t];
      StepsSnoc(Step(s, d, ticks[0]), d, ticks[1..], t);
    }
  }

  /** A forwarder whose reads all hand back bytes, whose writes and flushes do
      not throw, and whose sockets stay open, appends each chunk whole and in
      read order: the destination receives exactly the concatenation of the
      chunks, the direction's counter grows by its length, the other direction
      is untouched, and `lastActivityOn` is the time of the last non-empty chunk. */
  lemma {:induction false} CleanRunDelivers(s: Runner, d: Direction, ticks: seq<Tick>)
    requires PipeOf(s, d).thread == Looping && CanRead(s, d) && CanWrite(s, d)
    requires forall i :: 0 <= i < |ticks| ==> Clean(ticks[i])
    ensures var r := Steps(s, d, ticks);
      && PipeOf(r, d).thread == Looping && CanRead(r, d) && CanWrite(r, d)
      && PipeOf(r, d).output.data == PipeOf(s, d).output.data + Delivered(ticks)
      && PipeOf(r, d).input.consumed == PipeOf(s, d).input.consumed + Delivered(ticks)
      && PipeOf(r, d).count == PipeOf(s, d).count + |Delivered(ticks)|
      && PipeOf(r, Other(d)) == PipeOf(s, Other(d))
      && r.lastActivityOn == LastStamp(ticks, s.lastActivityOn)
      && r.finished == s.finished && r.phase == s.phase && r.trace == s.trace
    decreases |ticks|
  {
    if ticks != [] {
      var s1 := Step(s, d, ticks[0]);
      var b := ticks[0].read.bytes;
      assert PipeOf(s1, d).count == PipeOf(s, d).count + |b|;
      assert s1.lastActivityOn == if |b| > 0 then ticks[0].now else s.lastActivityOn;
      CleanRunDelivers(s1, d, ticks[1..]);
      assert Delivered(ticks) == b + Delivered(ticks[1..]);
    }
  }

  // ---------------------------------------------------------------------------
  // The invariant is kept by every step
  // ---------------------------------------------------------------------------

  lemma StepKeepsInv(s: Runner, d: Direction, t: Tick)
    requires Inv(s)
    ensures Inv(Step(s, d, t))
  {
    var p := PipeOf(s, d);
    PumpKeepsAccounted(p, SocketOpen(s, Source(d)), SocketOpen(s, Target(d)), t, Initial(s.config, d));
    if s.phase == Created {
      assert Step(s, d, t) == s;
    }
  }

  lemma ExitKeepsInv(s: Runner, d: Direction, f: ExitFaults)
    requires Inv(s)
    ensures Inv(Exit(s, d, f))
  {
    if PipeOf(s, d).thread == Exiting {
      if d == ToI2P {
        UploadExitKeepsInv(s, f);
      } else {
        DownloadExitKeepsInv(s, f);
      }
    }
  }

  /** The toI2P teardown keeps the invariant; it may close `s`, but the
      onTimeout clause of the invariant no longer applies once it has exited. */
  lemma UploadExitKeepsInv(s: Runner, f: ExitFaults)
    requires Inv(s) && s.up.thread == Exiting
    ensures Inv(Exit(s, ToI2P, f))
  {
    var r := Exit(s, ToI2P, f);
    assert multiset(r.trace) == multiset(s.trace) + multiset(TeardownEvents(ToI2P, false, f));
    assert JobRuns(r.trace) == JobRuns(s.trace);
    assert r.up.thread == Exited;
  }

  /** The fromI2P teardown keeps the invariant; when the onTimeout job is due
      it leaves `s` and the local output open. */
  lemma DownloadExitKeepsInv(s: Runner, f: ExitFaults)
    requires Inv(s) && s.down.thread == Exiting
    ensures Inv(Exit(s, FromI2P, f))
    ensures Exit(s, FromI2P, f).down.output.open
            == (s.down.output.open && (RunsTimeoutJob(s) || f.outputCloseFails))
  {
    var r := Exit(s, FromI2P, f);
    var keep := KeepsOutputOpen(s, FromI2P);
    assert multiset(r.trace) == multiset(s.trace) + multiset(TeardownEvents(FromI2P, keep, f));
    assert JobRuns(r.trace) == JobRuns(s.trace);
    assert RunsTimeoutJob(r) == keep;
  }

  /** Attempting to close the input a direction reads touches only that
      direction's pipe and, when it succeeds, the socket it reads. */
  lemma AttemptCloseInput(s: Runner, d: Direction, fails: bool)
    ensures var p := PipeOf(s, d);
      Attempt(s, CloseInput(Source(d)), fails)
      == (if fails then s else Shut(WithPipe(s, d, p.(input := p.input.(open := false))), Source(d)))
           .(trace := s.trace + [Attempted(CloseInput(Source(d)), !fails)])
  {
    assert Handler(CloseInput(Source(d))) == d;
  }

  /** Attempting to close the output a direction writes touches only that
      direction's pipe and, when it succeeds, the socket it writes. */
  lemma AttemptCloseOutput(s: Runner, d: Direction, fails: bool)
    ensures var p := PipeOf(s, d);
      Attempt(s, CloseOutput(Target(d)), fails)
      == (if fails then s else Shut(WithPipe(s, d, p.(output := p.output.(open := false))), Target(d)))
           .(trace := s.trace + [Attempted(CloseOutput(Target(d)), !fails)])
  {
    assert Handler(CloseOutput(Target(d))) == d;
  }

  /** The guarded steps of a forwarder's teardown, in order: the buffer goes
      back, the input close is attempted, then the output close unless `keep`. */
  function TeardownSteps(s: Runner, d: Direction, keep: bool, g: ExitFaults): (r: Runner)
    ensures r.trace == s.trace + TeardownEvents(d, keep, g)
  {
    var s1 := Attempt(s.(trace := s.trace + [ReleasedBuffer(d)]), CloseInput(Source(d)), g.inputCloseFails);
    if keep then s1 else Attempt(s1, CloseOutput(Target(d)), g.outputCloseFails)
  }

  /** The end of a teardown: the forwarder thread is over and `finished` is set. */
  function Retired(s: Runner, d: Direction): (r: Runner)
    ensures r.finished && PipeOf(r, d).thread == Exited
  {
    WithPipe(s, d, PipeOf(s, d).(thread := Exited)).(finished := true)
  }

  /** A forwarder's teardown is its guarded steps in order: the buffer goes
      back, the input close is attempted, then the output close unless the
      onTimeout exception applies; then the thread ends and `finished` is set. */
  lemma ExitAsAttempts(s: Runner, d: Direction, g: ExitFaults)
    requires PipeOf(s, d).thread == Exiting
    ensures Exit(s, d, g) == Retired(TeardownSteps(s, d, KeepsOutputOpen(s, d), g), d)
  {
    if d == ToI2P {
      UploadExitAsAttempts(s, g);
    } else {
      DownloadExitAsAttempts(s, g);
    }
  }

  /** `ExitAsAttempts` for the ToI2P direction. */
  lemma UploadExitAsAttempts(s: Runner, g: ExitFaults)
    requires PipeOf(s, ToI2P).thread == Exiting
    ensures Exit(s, ToI2P, g) == Retired(TeardownSteps(s, ToI2P, KeepsOutputOpen(s, ToI2P), g), ToI2P)
  {
    var keep := KeepsOutputOpen(s, ToI2P);
    var s0 := s.(trace := s.trace + [ReleasedBuffer(ToI2P)]);
    var s1 := Attempt(s0, CloseInput(Source(ToI2P)), g.inputCloseFails);
    AttemptCloseInput(s0, ToI2P, g.inputCloseFails);
    var s2 := if keep then s1 else Attempt(s1, CloseOutput(Target(ToI2P)), g.outputCloseFails);
    if !keep {
      AttemptCloseOutput(s1, ToI2P, g.outputCloseFails);
    }
    var q := Retire(PipeOf(s, ToI2P), keep, g);
    var e := Exit(s, ToI2P, g);
    assert s2.up.(thread := Exited) == q;
    assert s2.trace == s.trace + TeardownEvents(ToI2P, keep, g);
    assert s2.localOpen == e.localOpen && s2.i2pOpen == e.i2pOpen;
    assert e == s.(up := q, trace := s2.trace, localOpen := e.localOpen, i2pOpen := e.i2pOpen, finished := true);
    assert s2 == TeardownSteps(s, ToI2P, keep, g);
  }

  /** `ExitAsAttempts` for the FromI2P direction. */
  lemma DownloadExitAsAttempts(s: Runner, g: ExitFaults)
    requires PipeOf(s, FromI2P).thread == Exiting
    ensures Exit(s, FromI2P, g) == Retired(TeardownSteps(s, FromI2P, KeepsOutputOpen(s, FromI2P), g), FromI2P)
  {
    var keep := KeepsOutputOpen(s, FromI2P);
    var s0 := s.(trace := s.trace + [ReleasedBuffer(FromI2P)]);
    var s1 := Attempt(s0, CloseInput(Source(FromI2P)), g.inputCloseFails);
    AttemptCloseInput(s0, FromI2P, g.inputCloseFails);
    var s2 := if keep then s1 else Attempt(s1, CloseOutput(Target(FromI2P)), g.outputCloseFails);
    if !keep {
      AttemptCloseOutput(s1, FromI2P, g.outputCloseFails);
    }
    var q := Retire(PipeOf(s, FromI2P), keep, g);
    var e := Exit(s, FromI2P, g);
    assert s2.down.(thread := Exited) == q;
    assert s2.trace == s.trace + TeardownEvents(FromI2P, keep, g);
    assert s2.localOpen == e.localOpen && s2.i2pOpen == e.i2pOpen;
    assert e == s.(down := q, trace := s2.trace, localOpen := e.localOpen, i2pOpen := e.i2pOpen, finished := true);
    assert s2 == TeardownSteps(s, FromI2P, keep, g);
  }

  /** `close` is its six guarded steps, one after the other. */
  lemma CloseAsAttempts(s0: Runner, s1: Runner, s2: Runner, s3: Runner, s4: Runner, s5: Runner,
                        s6: Runner, failing: set<Op>)
    requires s1 == Attempt(s0, FlushOutput(Local), FlushOutput(Local) in failing)
    requires s2 == Attempt(s1, FlushOutput(I2P), FlushOutput(I2P) in failing)
    requires s3 == Attempt(s2, CloseInput(Local), CloseInput(Local) in failing)
    requires s4 == Attempt(s3, CloseInput(I2P), CloseInput(I2P) in failing)
    requires s5 == Attempt(s4, CloseSocket(Local), CloseSocket(Local) in failing)
    requires s6 == Attempt(s5, CloseSocket(I2P), CloseSocket(I2P) in failing)
    ensures s6 == AttemptAll(s0, CloseOrder, failing)
  {
    var tail := CloseOrder;
    assert AttemptAll(s0, tail, failing) == AttemptAll(s1, tail[1..], failing);
    tail := tail[1..];
    assert AttemptAll(s1, tail, failing) == AttemptAll(s2, tail[1..], failing);
    tail := tail[1..];
    assert AttemptAll(s2, tail, failing) == AttemptAll(s3, tail[1..], failing);
    tail := tail[1..];
    assert AttemptAll(s3, tail, failing) == AttemptAll(s4, tail[1..], failing);
    tail := tail[1..];
    assert AttemptAll(s4, tail, failing) == AttemptAll(s5, tail[1..], failing);
    tail := tail[1..];
    assert AttemptAll(s5, tail, failing) == AttemptAll(s6, tail[1..], failing);
    assert tail[1..] == [];
  }

  lemma BeginKeepsInv(s: Runner, f: StartFaults)
    requires Inv(s)
    ensures Inv(Begin(s, f))
  {
    var r := Begin(s, f);
    if s.phase == Created && r.phase != Waiting {
      assert multiset(r.trace) == multiset(s.trace) + multiset(Outcomes(FinallyOrder, FinallyFailing(f.finallyFails)));
    }
  }

  /** The coordinator records the onTimeout job once if it applies, else never. */
  lemma WakeEventsJobRuns(before: seq<Event>, runsJob: bool, f: CloseFaults)
    ensures JobRuns(before + WakeEvents(runsJob, f)) == JobRuns(before) + if runsJob then 1 else 0
  {
    var closing := if runsJob && f.jobThrows then [] else Outcomes(CloseOrder, f.failing);
    var job: seq<Event> := if runsJob then [RanTimeoutJob] else [];
    var fin := Outcomes(FinallyOrder, FinallyFailing(f.finallyFails));
    assert JobAndCloseEvents(runsJob, f) == job + closing;
    assert JobRuns(job + closing) == JobRuns(job) by {
      assert multiset(job + closing) == multiset(job) + multiset(closing);
    }
    assert JobRuns(before + WakeEvents(runsJob, f)) == JobRuns(before) + JobRuns(job + closing) by {
      assert before + WakeEvents(runsJob, f) == before + (job + closing) + fin;
      assert multiset(before + (job + closing) + fin)
             == multiset(before) + multiset(job + closing) + multiset(fin);
    }
  }

  /** The coordinator's wake-up keeps the invariant: no byte moved, and the
      trace gained the onTimeout job at most once. */
  lemma WokenKeepsInv(s: Runner, r: Runner, f: CloseFaults)
    requires Inv(s) && s.phase == Waiting && s.finished
    requires SameFlow(s, r) && r.phase == Done
    requires r.trace == s.trace + WakeEvents(RunsTimeoutJob(s), f)
    ensures Inv(r)
  {
    WakeEventsJobRuns(s.trace, RunsTimeoutJob(s), f);
    assert Accounted(r.up, Initial(r.config, ToI2P));
    assert Accounted(r.down, Initial(r.config, FromI2P));
  }

  lemma CompleteKeepsInv(s: Runner, f: CloseFaults)
    requires Inv(s)
    ensures Inv(Complete(s, f))
  {
    if s.phase == Waiting && s.finished {
      WokenKeepsInv(s, Complete(s, f), f);
    }
  }

  lemma InterruptKeepsInv(s: Runner, fails: set<Side>)
    requires Inv(s)
    ensures Inv(Interrupt(s, fails))
  {
    var r := Interrupt(s, fails);
    if s.phase == Waiting {
      assert multiset(r.trace) == multiset(s.trace) + multiset(Outcomes(FinallyOrder, FinallyFailing(fails)));
      assert Accounted(r.up, Initial(r.config, ToI2P));
      assert Accounted(r.down, Initial(r.config, FromI2P));
    }
  }

  lemma ApplyKeepsInv(s: Runner, a: Action)
    requires Inv(s)
    ensures Inv(Apply(s, a))
  {
    match a
    case Launch(f) => BeginKeepsInv(s, f);
    case Forward(d, t) => StepKeepsInv(s, d, t);
    case Teardown(d, f) => ExitKeepsInv(s, d, f);
    case Error =>
    case Wake(f) => CompleteKeepsInv(s, f);
    case Interrupted(fails) => InterruptKeepsInv(s, fails);
  }

  /** Every interleaving keeps the invariant. */
  lemma {:induction false} RunKeepsInv(s: Runner, actions: seq<Action>)
    requires Inv(s)
    ensures Inv(Run(s, actions))
    decreases |actions|
  {
    if actions != [] {
      ApplyKeepsInv(s, actions[0]);
      RunKeepsInv(Apply(s, actions[0]), actions[1..]);
    }
  }

  // ---------------------------------------------------------------------------
  // Every reachable state
  // ---------------------------------------------------------------------------

  lemma ReachableInv(now: nat, i2pData: Option<Bytes>, socketData: Option<Bytes>, job: bool,
                     actions: seq<Action>)
    ensures Inv(Run(Init(now, i2pData, socketData, job), actions))
  {
    RunKeepsInv(Init(now, i2pData, socketData, job), actions);
  }

  /** In every reachable state, each started direction's destination holds the
      initial data followed by exactly the first `count` bytes read from its
      source, in read order; while its forwarder loops, `count` is all it read. */
  lemma ForwardedInOrder(now: nat, i2pData: Option<Bytes>, socketData: Option<Bytes>, job: bool,
                         actions: seq<Action>, d: Direction)
    ensures var r := Run(Init(now, i2pData, socketData, job), actions);
      var p := PipeOf(r, d);
      && 0 <= p.count <= |p.input.consumed|
      && (p.thread != Unstarted ==> p.output.data == Initial(r.config, d) + p.input.consumed[..p.count])
      && (p.thread == Looping ==> p.count == |p.input.consumed|)
      && r.config.initialI2PData == i2pData && r.config.initialSocketData == socketData
  {
    ReachableInv(now, i2pData, socketData, job, actions);
  }

  /** `lastActivityOn` is -1 exactly as long as no byte has moved in either direction. */
  lemma ActivitySentinel(now: nat, i2pData: Option<Bytes>, socketData: Option<Bytes>, job: bool,
                         actions: seq<Action>)
    ensures var r := Run(Init(now, i2pData, socketData, job), actions);
      r.lastActivityOn == -1 <==> TotalSent(r) == 0 && TotalReceived(r) == 0
  {
    ReachableInv(now, i2pData, socketData, job, actions);
  }

  /** The onTimeout job runs at most once, never without being configured, and
      only once the coordinator is done. */
  lemma TimeoutJobAtMostOnce(now: nat, i2pData: Option<Bytes>, socketData: Option<Bytes>, job: bool,
                             actions: seq<Action>)
    ensures var r := Run(Init(now, i2pData, socketData, job), actions);
      JobRuns(r.trace) <= 1 && (JobRuns(r.trace) == 1 ==> job && r.phase == Done)
  {
    ReachableInv(now, i2pData, socketData, job, actions);
  }

  /** Whenever the coordinator could wake and run the onTimeout job, and the
      toI2P forwarder has not torn down (its `in.close()` closes `s`), the local
      socket and its output are still open, so the job can still write its
      reply. `UploadEndClosesLocal` shows the hypothesis on toI2P is needed. */
  lemma OutputOpenForTimeoutJob(now: nat, i2pData: Option<Bytes>, socketData: Option<Bytes>,
                                actions: seq<Action>)
    ensures var r := Run(Init(now, i2pData, socketData, true), actions);
      r.phase == Waiting && TotalReceived(r) <= 0 && r.up.thread != Exited ==>
        r.localOpen && r.down.output.open
  {
    ReachableInv(now, i2pData, socketData, true, actions);
  }

  /** While the runner waits with the onTimeout job due, the client has been
      sent nothing beyond `initialSocketData`: a forwarder pass writes and
      counts in one atomic step. */
  lemma JobMeansNothingForwarded(now: nat, i2pData: Option<Bytes>, socketData: Option<Bytes>,
                                 actions: seq<Action>)
    ensures var r := Run(Init(now, i2pData, socketData, true), actions);
      r.phase == Waiting && RunsTimeoutJob(r) ==> r.down.output.data == Given(socketData)
  {
    ReachableInv(now, i2pData, socketData, true, actions);
  }

  /** Once either forwarder has finished its teardown, `finished` is set. */
  lemma FinishedOnceAForwarderExits(now: nat, i2pData: Option<Bytes>, socketData: Option<Bytes>,
                                    job: bool, actions: seq<Action>)
    ensures var r := Run(Init(now, i2pData, socketData, job), actions);
      r.up.thread == Exited || r.down.thread == Exited ==> r.finished
  {
    ReachableInv(now, i2pData, socketData, job, actions);
  }

  // ---------------------------------------------------------------------------
  // The coordinator's wake-up
  // ---------------------------------------------------------------------------

  /** After the wait, the onTimeout job runs once more if it is configured and
      nothing was received (even if bytes were sent), and not at all otherwise.
      In a reachable state it has not run before (`WaitingFacts`), so it runs
      exactly once or not at all. */
  lemma TimeoutJobRunsOnce(s: Runner, f: CloseFaults)
    requires s.phase == Waiting && s.finished
    ensures JobRuns(Complete(s, f).trace)
            == JobRuns(s.trace) + (if s.config.hasTimeoutJob && TotalReceived(s) <= 0 then 1 else 0)
  {
    var after := Complete(s, f).trace;
    WakeTrace(s.trace, after, RunsTimeoutJob(s), f);
  }

  /** When the onTimeout job runs it is the first thing the coordinator does,
      before any flush or close; unless the toI2P forwarder has torn down, the
      local output is still open then. */
  lemma TimeoutJobRunsFirst(s: Runner, f: CloseFaults)
    requires Inv(s) && s.phase == Waiting && s.finished
    ensures RunsTimeoutJob(s) ==>
              && |Complete(s, f).trace| > |s.trace|
              && Complete(s, f).trace[|s.trace|] == RanTimeoutJob
              && (s.up.thread != Exited ==> CanWrite(s, FromI2P))
  {
    WaitingFacts(s);
    WakeTrace(s.trace, Complete(s, f).trace, RunsTimeoutJob(s), f);
  }

  /** While the coordinator waits, the onTimeout job has not run, and when it
      is due and the toI2P forwarder has not torn down, the local output can
      still be written. */
  lemma WaitingFacts(s: Runner)
    requires Inv(s) && s.phase == Waiting
    ensures JobRuns(s.trace) == 0
    ensures RunsTimeoutJob(s) && s.up.thread != Exited ==> CanWrite(s, FromI2P)
  {
  }

  /** A trace extended by the wake-up's events holds one more run of the
      onTimeout job exactly when it applies, and then as the first new event. */
  lemma WakeTrace(before: seq<Event>, after: seq<Event>, runsJob: bool, f: CloseFaults)
    requires after == before + WakeEvents(runsJob, f)
    ensures JobRuns(after) == JobRuns(before) + if runsJob then 1 else 0
    ensures runsJob ==> |after| > |before| && after[|before|] == RanTimeoutJob
  {
    WakeEventsJobRuns(before, runsJob, f);
    if runsJob {
      assert after[|before|] == WakeEvents(runsJob, f)[0];
    }
  }

  /** The steps the coordinator attempts, in order. */
  function Attempts(t: seq<Event>): seq<Op>
  {
    if t == [] then [] else (if t[0].Attempted? then [t[0].op] else []) + Attempts(t[1..])
  }

  lemma {:induction false} AttemptsOfOutcomes(ops: seq<Op>, failing: set<Op>)
    ensures Attempts(Outcomes(ops, failing)) == ops
    decreases |ops|
  {
    if ops != [] {
      assert Outcomes(ops, failing)[1..] == Outcomes(ops[1..], failing);
      AttemptsOfOutcomes(ops[1..], failing);
    }
  }

  lemma {:induction false} AttemptsAppend(a: seq<Event>, b: seq<Event>)
    ensures Attempts(a + b) == Attempts(a) + Attempts(b)
    decreases |a|
  {
    if a == [] {
      assert a + b == b;
    } else {
      assert (a + b)[0] == a[0];
      assert (a + b)[1..] == a[1..] + b;
      AttemptsAppend(a[1..], b);
      calc {
        Attempts(a + b);
        (if a[0].Attempted? then [a[0].op] else []) + Attempts(a[1..] + b);
        (if a[0].Attempted? then [a[0].op] else []) + (Attempts(a[1..]) + Attempts(b));
        Attempts(a) + Attempts(b);
      }
    }
  }

  /** `close` attempts every one of its steps in the fixed order flush out, flush
      i2pout, close in, close i2pin, close s, close i2ps, whichever of them
      throw; then the `finally` block closes s and i2ps again. Only a throwing
      onTimeout job skips `close`, never the `finally` block. */
  lemma CloseAttemptsEveryStep(s: Runner, f: CloseFaults)
    requires s.phase == Waiting && s.finished
    ensures var r := Complete(s, f);
      Attempts(r.trace[|s.trace|..])
      == (if RunsTimeoutJob(s) && f.jobThrows then [] else CloseOrder) + FinallyOrder
  {
    var r := Complete(s, f);
    assert r.trace[|s.trace|..] == WakeEvents(RunsTimeoutJob(s), f);
    WakeAttempts(RunsTimeoutJob(s), f);
  }

  lemma WakeAttempts(runsJob: bool, f: CloseFaults)
    ensures Attempts(WakeEvents(runsJob, f))
            == (if runsJob && f.jobThrows then [] else CloseOrder) + FinallyOrder
  {
    var closing := if runsJob && f.jobThrows then [] else Outcomes(CloseOrder, f.failing);
    var job: seq<Event> := if runsJob then [RanTimeoutJob] else [];
    var fin := Outcomes(FinallyOrder, FinallyFailing(f.finallyFails));
    AttemptsAppend(job + closing, fin);
    AttemptsAppend(job, closing);
    AttemptsOfOutcomes(FinallyOrder, FinallyFailing(f.finallyFails));
    AttemptsOfOutcomes(CloseOrder, f.failing);
    assert Attempts(job) == [] by {
      if job != [] { assert job[1..] == []; }
    }
  }

  /** An interrupted wait skips the onTimeout job and `close`: the only steps
      it attempts are the two socket closes of the `finally` block. */
  lemma InterruptSkipsJob(s: Runner, fails: set<Side>)
    requires s.phase == Waiting
    ensures var r := Interrupt(s, fails);
      && JobRuns(r.trace) == JobRuns(s.trace)
      && Attempts(r.trace[|s.trace|..]) == FinallyOrder
  {
    var r := Interrupt(s, fails);
    var fin := Outcomes(FinallyOrder, FinallyFailing(fails));
    assert r.trace[|s.trace|..] == fin;
    AttemptsOfOutcomes(FinallyOrder, FinallyFailing(fails));
    assert multiset(r.trace) == multiset(s.trace) + multiset(fin);
  }

  // ---------------------------------------------------------------------------
  // Socket closes tolerate repetition
  // ---------------------------------------------------------------------------

  /** A socket survives a run of guarded steps exactly when it was open and
      every attempt to close it threw. */
  lemma {:induction false} AttemptAllSocket(s: Runner, ops: seq<Op>, failing: set<Op>, side: Side)
    ensures SocketOpen(AttemptAll(s, ops, failing), side)
            == (SocketOpen(s, side) && forall op :: op in ops && Closes(op, side) ==> op in failing)
    decreases |ops|
  {
    if ops != [] {
      var s1 := Attempt(s, ops[0], ops[0] in failing);
      assert SocketOpen(s1, side) == (SocketOpen(s, side) && (Closes(ops[0], side) ==> ops[0] in failing));
      AttemptAllSocket(s1, ops[1..], failing, side);
      assert forall op :: op in ops <==> op == ops[0] || op in ops[1..];
    }
  }

  /** The steps of `close` that close socket `side`: its input stream and the
      socket itself. */
  lemma CloseOrderCloses(failing: set<Op>, side: Side)
    ensures (forall op :: op in CloseOrder && Closes(op, side) ==> op in failing)
            == (CloseInput(side) in failing && CloseSocket(side) in failing)
  {
    assert CloseInput(side) in CloseOrder && CloseSocket(side) in CloseOrder;
  }

  /** The job and `close`: a side's socket stays open only when the job threw
      or both of `close`'s attempts on it failed. */
  lemma JobThenCloseSocket(s: Runner, runsJob: bool, f: CloseFaults, side: Side)
    ensures SocketOpen(JobThenClose(s, runsJob, f), side)
            == (&& SocketOpen(s, side)
                && ((runsJob && f.jobThrows)
                    || (CloseInput(side) in f.failing && CloseSocket(side) in f.failing)))
  {
    var s1 := if runsJob then s.(trace := s.trace + [RanTimeoutJob]) else s;
    assert SocketOpen(s1, side) == SocketOpen(s, side);
    AttemptAllSocket(s1, CloseOrder, f.failing, side);
    CloseOrderCloses(f.failing, side);
  }

  /** The `finally` block: a side's socket stays open only when its close failed. */
  lemma FinallySocket(s: Runner, fails: set<Side>, side: Side)
    ensures SocketOpen(Finally(s, fails), side) == (SocketOpen(s, side) && side in fails)
  {
    AttemptAllSocket(s, FinallyOrder, FinallyFailing(fails), side);
    assert (forall op :: op in FinallyOrder && Closes(op, side) ==> op in FinallyFailing(fails))
           == (side in fails) by {
      assert CloseSocket(side) in FinallyOrder;
    }
  }

  /** After the wake-up a socket is still open only if `close` left it open
      (both its input close and its socket close threw, or the onTimeout job
      threw and `close` was skipped) and the close in the `finally` block threw
      too: closing an already closed socket is harmless. */
  lemma WakeClosesSockets(s: Runner, f: CloseFaults, side: Side)
    requires s.phase == Waiting && s.finished
    ensures SocketOpen(Complete(s, f), side)
            == (&& SocketOpen(s, side)
                && ((RunsTimeoutJob(s) && f.jobThrows)
                    || (CloseInput(side) in f.failing && CloseSocket(side) in f.failing))
                && side in f.finallyFails)
  {
    JobThenCloseSocket(s, RunsTimeoutJob(s), f, side);
    FinallySocket(JobThenClose(s, RunsTimeoutJob(s), f), f.finallyFails, side);
  }

  // ---------------------------------------------------------------------------
  // Whole sessions
  // ---------------------------------------------------------------------------

  /** No exception while writing the initial data. */
  const NoStartFaults: StartFaults := StartFaults(false, false, false, {})

  /** A fresh runner whose initial writes succeed starts both forwarders with
      each initial array already at its destination, nothing counted and no
      activity stamped. */
  lemma CleanStart(now: nat, i2pData: Option<Bytes>, socketData: Option<Bytes>, job: bool)
    ensures var r := Begin(Init(now, i2pData, socketData, job), NoStartFaults);
      && r.phase == Waiting && !r.finished && r.trace == []
      && r.up.thread == Looping && r.down.thread == Looping
      && CanRead(r, ToI2P) && CanWrite(r, ToI2P) && CanRead(r, FromI2P) && CanWrite(r, FromI2P)
      && r.up.output.data == Given(i2pData) && r.down.output.data == Given(socketData)
      && r.up.input.consumed == [] && r.down.input.consumed == []
      && TotalSent(r) == 0 && TotalReceived(r) == 0 && r.lastActivityOn == -1
  {
    var s := Init(now, i2pData, socketData, job);
    var w := InitialWrites(s, NoStartFaults);
    assert w.2;
    assert [] + Given(i2pData) == Given(i2pData);
    assert [] + Given(socketData) == Given(socketData);
  }

  /** A clean upload: after a clean start, a toI2P forwarder whose reads all
      succeed delivers the initial I2P data followed by every chunk read, in
      order; `totalSent` is the number of forwarded bytes, `totalReceived`
      stays 0, and `lastActivityOn` is the time of the last non-empty chunk. */
  lemma CleanUploadDelivers(now: nat, i2pData: Option<Bytes>, socketData: Option<Bytes>, job: bool,
                            ticks: seq<Tick>)
    requires forall i :: 0 <= i < |ticks| ==> Clean(ticks[i])
    ensures var r := Steps(Begin(Init(now, i2pData, socketData, job), NoStartFaults), ToI2P, ticks);
      && r.up.output.data == Given(i2pData) + Delivered(ticks)
      && r.down.output.data == Given(socketData)
      && TotalSent(r) == |Delivered(ticks)| && TotalReceived(r) == 0
      && r.lastActivityOn == LastStamp(ticks, -1)
      && r.phase == Waiting && !r.finished
  {
    var s := Begin(Init(now, i2pData, socketData, job), NoStartFaults);
    CleanStart(now, i2pData, socketData, job);
    CleanRunDelivers(s, ToI2P, ticks);
  }

  /** The fromI2P forwarder reads -1 and tears down: nothing is counted, the
      input is closed, the output is kept open exactly under the onTimeout
      exception, `finished` is raised and the coordinator is still waiting. */
  lemma ZeroByteEnd(s: Runner, t: Tick, g: ExitFaults)
    requires Inv(s) && s.phase == Waiting && s.down.thread == Looping && t.read == EndOfStream
    ensures var e := Exit(Step(s, FromI2P, t), FromI2P, g);
      && Inv(e) && e.finished && e.phase == Waiting && e.config == s.config
      && TotalSent(e) == TotalSent(s) && TotalReceived(e) == TotalReceived(s)
      && e.i2pOpen == (s.i2pOpen && g.inputCloseFails)
      && e.localOpen == (s.localOpen && (KeepsOutputOpen(s, FromI2P) || g.outputCloseFails))
      && e.down.input.open == (s.down.input.open && g.inputCloseFails)
      && e.down.output.open == (s.down.output.open && (KeepsOutputOpen(s, FromI2P) || g.outputCloseFails))
  {
    var s1 := Step(s, FromI2P, t);
    assert s1.down == s.down.(thread := Exiting);
    StepKeepsInv(s, FromI2P, t);
    ExitKeepsInv(s1, FromI2P, g);
  }

  /** A wake-up with the onTimeout job due and nothing failing: the job runs
      once, first, then every step of `close`, then the `finally` block; both
      sockets end closed. */
  lemma WakeWithJobDue(e: Runner)
    requires Inv(e) && e.phase == Waiting && e.finished && RunsTimeoutJob(e)
    ensures var r := Complete(e, CloseFaults(false, {}, {}));
      && r.trace == e.trace + [RanTimeoutJob] + Outcomes(CloseOrder, {}) + Outcomes(FinallyOrder, FinallyFailing({}))
      && JobRuns(r.trace) == 1
      && !r.localOpen && !r.i2pOpen && r.phase == Done
  {
    var f := CloseFaults(false, {}, {});
    WaitingFacts(e);
    TimeoutJobRunsOnce(e, f);
    WakeClosesSockets(e, f, Local);
    WakeClosesSockets(e, f, I2P);
  }

  /** The outproxy closes at once, nothing having been received, with an
      onTimeout job present: the fromI2P forwarder leaves the local output
      open; the coordinator then runs the job exactly once as its first step,
      while the local socket and output are still open, attempts every step of
      `close` and closes both sockets. */
  lemma RemoteClosesAtOnce(now: nat, i2pData: Option<Bytes>, socketData: Option<Bytes>, t: Tick,
                           e: Runner)
    requires t.read == EndOfStream
    requires e == Exit(Step(Begin(Init(now, i2pData, socketData, true), NoStartFaults), FromI2P, t),
                       FromI2P, ExitFaults(false, false))
    ensures e.finished && e.localOpen && e.down.output.open && !e.down.input.open && !e.i2pOpen
    ensures TotalReceived(e) == 0 && TotalSent(e) == 0
    ensures var r := Complete(e, CloseFaults(false, {}, {}));
      && r.trace == e.trace + [RanTimeoutJob] + Outcomes(CloseOrder, {}) + Outcomes(FinallyOrder, FinallyFailing({}))
      && JobRuns(r.trace) == 1
      && !r.localOpen && !r.i2pOpen && r.phase == Done
  {
    var b := Begin(Init(now, i2pData, socketData, true), NoStartFaults);
    CleanStart(now, i2pData, socketData, true);
    BeginKeepsInv(Init(now, i2pData, socketData, true), NoStartFaults);
    ZeroByteEnd(b, t, ExitFaults(false, false));
    WakeWithJobDue(e);
  }

  /** A race between the two teardowns: with an onTimeout job present, the
      local client ends its upload at once (toI2P reads -1) and the toI2P
      forwarder tears down first. Its `in.close()` closes `s`, so
      when the coordinator wakes, the job is due but the local output can no
      longer be written; the job still runs, exactly once. */
  lemma UploadEndClosesLocal(now: nat, i2pData: Option<Bytes>, socketData: Option<Bytes>, t: Tick,
                             e: Runner)
    requires t.read == EndOfStream
    requires e == Exit(Step(Begin(Init(now, i2pData, socketData, true), NoStartFaults), ToI2P, t),
                       ToI2P, ExitFaults(false, false))
    ensures e.finished && e.phase == Waiting && RunsTimeoutJob(e)
    ensures !e.localOpen && !CanWrite(e, FromI2P) && e.down.output.open
    ensures JobRuns(Complete(e, CloseFaults(false, {}, {})).trace) == 1
  {
    var b := Begin(Init(now, i2pData, socketData, true), NoStartFaults);
    CleanStart(now, i2pData, socketData, true);
    BeginKeepsInv(Init(now, i2pData, socketData, true), NoStartFaults);
    UploadEnd(b, t, ExitFaults(false, false));
    WaitingFacts(e);
    TimeoutJobRunsOnce(e, CloseFaults(false, {}, {}));
  }

  /** The toI2P forwarder reads -1 and tears down: nothing is counted, its
      input and with it `s` are closed unless that close throws, `finished` is
      raised, the fromI2P direction is untouched and the coordinator still waits. */
  lemma UploadEnd(s: Runner, t: Tick, g: ExitFaults)
    requires Inv(s) && s.phase == Waiting && s.up.thread == Looping && t.read == EndOfStream
    ensures var e := Exit(Step(s, ToI2P, t), ToI2P, g);
      && Inv(e) && e.finished && e.phase == Waiting && e.config == s.config
      && TotalSent(e) == TotalSent(s) && e.down == s.down
      && e.localOpen == (s.localOpen && g.inputCloseFails)
      && e.i2pOpen == (s.i2pOpen && g.outputCloseFails)
  {
    var s1 := Step(s, ToI2P, t);
    assert s1.up == s.up.(thread := Exiting);
    StepKeepsInv(s, ToI2P, t);
    ExitKeepsInv(s1, ToI2P, g);
  }

  /** The wake-up after `errorOccurred`, nothing having been received: the
      onTimeout job runs exactly when one is present. */
  lemma AbortWakeUp(s: Runner, f: CloseFaults)
    requires s.phase == Waiting && TotalReceived(s) == 0
    ensures var aborted := ErrorOccurred(s);
      Complete(aborted, f).trace == aborted.trace + WakeEvents(s.config.hasTimeoutJob, f)
  {
    var aborted := ErrorOccurred(s);
    assert RunsTimeoutJob(aborted) == s.config.hasTimeoutJob;
  }

  /** The wake-up after the fromI2P forwarder read -1 at once: the onTimeout job
      runs exactly when one is present. */
  lemma ZeroByteWakeUp(s: Runner, t: Tick, g: ExitFaults, f: CloseFaults)
    requires Inv(s) && s.phase == Waiting && TotalReceived(s) == 0
    requires s.down.thread == Looping && t.read == EndOfStream
    ensures var ended := Exit(Step(s, FromI2P, t), FromI2P, g);
      Complete(ended, f).trace == ended.trace + WakeEvents(s.config.hasTimeoutJob, f)
  {
    ZeroByteEnd(s, t, g);
  }

  /** `errorOccurred` before any byte moved leads to the same wake-up as a
      fromI2P forwarder that ends on a zero-byte stream: the same onTimeout
      decision (the job runs exactly when one is present) and the same close and
      `finally` attempts. */
  lemma AbortLikeZeroByteEnd(s: Runner, t: Tick, g: ExitFaults, f: CloseFaults)
    requires Inv(s) && s.phase == Waiting && TotalSent(s) == 0 && TotalReceived(s) == 0
    requires s.down.thread == Looping && t.read == EndOfStream
    ensures var aborted := ErrorOccurred(s);
      var ended := Exit(Step(s, FromI2P, t), FromI2P, g);
      Complete(aborted, f).trace[|aborted.trace|..] == Complete(ended, f).trace[|ended.trace|..]
  {
    AbortWakeUp(s, f);
    ZeroByteWakeUp(s, t, g, f);
  }
}

=== FILE: relay.dfy ===
/** The runner as the object it is: the fields of I2PTunnelOutproxyRunner
    (with each socket's two stream halves and each forwarder's state beside
    them), and one method per piece of code that changes them. Each method is
    proved to move the object exactly as the corresponding step of Session
    does, and to keep Session's invariant, so every property proved there
    holds of the object. */
module Relay {
  import opened Streams
  import opened Session
  import Properties

  class OutproxyRunner {
    /** `onTimeout != null`. */
    const onTimeout: bool
    const initialI2PData: Option<Bytes>
    const initialSocketData: Option<Bytes>
    /** When the runner started up. */
    const startedOn: int

    /** When data last moved, or -1 if never. */
    var lastActivityOn: int
    /** The one-shot completion flag. */
    var finished: bool
    /** Where the runner thread is: before `run`, waiting, or done. */
    var phase: Phase
    /** The toI2P forwarder: its thread, `totalSent`, `in` and `i2pout`. */
    var toI2P: Pipe
    /** The fromI2P forwarder: its thread, `totalReceived`, `i2pin` and `out`. */
    var fromI2P: Pipe
    /** Whether `s` and `i2ps` are still open. */
    var localOpen: bool
    var i2pOpen: bool
    /** What the lifecycle did so far. */
    ghost var trace: seq<Event>

    /** The object's state as a Session snapshot. */
    ghost function Model(): Runner
      reads this
    {
      Runner(Config(onTimeout, initialI2PData, initialSocketData, startedOn),
             lastActivityOn, finished, phase, toI2P, fromI2P, localOpen, i2pOpen, trace)
    }

    ghost predicate Valid()
      reads this
    {
      Inv(Model())
    }

    /** The fields of direction `d`, readable outside ghost code. */
    function Forwarder(d: Direction): (p: Pipe)
      reads this
      ensures p == PipeOf(Model(), d)
    {
      if d == ToI2P then toI2P else fromI2P
    }

    /** Whether socket `side` is open, readable outside ghost code. */
    function IsOpen(side: Side): (open: bool)
      reads this
      ensures open == SocketOpen(Model(), side)
    {
      if side == Local then localOpen else i2pOpen
    }

    /** Close socket `side`. */
    method ShutSocket(side: Side)
      modifies this
      ensures Model() == Shut(old(Model()), side)
    {
      if side == Local {
        localOpen := false;
      } else {
        i2pOpen := false;
      }
    }

    /** The constructor, given the clock's reading. */
    constructor (now: nat, i2pData: Option<Bytes>, socketData: Option<Bytes>, job: bool)
      ensures Model() == Init(now, i2pData, socketData, job)
      ensures Valid()
    {
      onTimeout := job;
      initialI2PData := i2pData;
      initialSocketData := socketData;
      lastActivityOn := -1;
      startedOn := now;
      finished := false;
      phase := Created;
      toI2P := Fresh;
      fromI2P := Fresh;
      localOpen := true;
      i2pOpen := true;
      trace := [];
    }

    method SetForwarder(d: Direction, p: Pipe)
      modifies this
      ensures Model() == WithPipe(old(Model()), d, p)
    {
      if d == ToI2P {
        toI2P := p;
      } else {
        fromI2P := p;
      }
    }

    /** `updateActivity`, given the clock's reading. */
    method UpdateActivity(now: nat)
      modifies this
      ensures Model() == Session.UpdateActivity(old(Model()), now)
    {
      lastActivityOn := now;
    }

    /** `errorOccurred`. */
    method ErrorOccurred()
      requires Valid()
      modifies this
      ensures Model() == Session.ErrorOccurred(old(Model()))
      ensures Valid()
    {
      finished := true;
    }

    /** One guarded step of a teardown: perform `op` unless it throws, and go on.
        Closing either stream of a socket closes the socket. */
    method Try(op: Op, fails: bool)
      modifies this
      ensures Model() == Attempt(old(Model()), op, fails)
    {
      if !fails {
        match op
        case FlushOutput(side) =>
          var p := Forwarder(WriterOf(side));
          SetForwarder(WriterOf(side), p.(output := Flush(p.output)));
        case CloseInput(side) =>
          var p := Forwarder(ReaderOf(side));
          SetForwarder(ReaderOf(side), p.(input := p.input.(open := false)));
          ShutSocket(side);
        case CloseOutput(side) =>
          var p := Forwarder(WriterOf(side));
          SetForwarder(WriterOf(side), p.(output := p.output.(open := false)));
          ShutSocket(side);
        case CloseSocket(side) =>
          ShutSocket(side);
      }
      trace := trace + [Attempted(op, !fails)];
    }

    /** `close`: flush out, flush i2pout, close in, close i2pin, close s,
        close i2ps, each in its own try block. */
    method Close(failing: set<Op>)
      modifies this
      ensures Model() == AttemptAll(old(Model()), CloseOrder, failing)
    {
      ghost var s0 := Model();
      Try(FlushOutput(Local), FlushOutput(Local) in failing);
      ghost var s1 := Model();
      Try(FlushOutput(I2P), FlushOutput(I2P) in failing);
      ghost var s2 := Model();
      Try(CloseInput(Local), CloseInput(Local) in failing);
      ghost var s3 := Model();
      Try(CloseInput(I2P), CloseInput(I2P) in failing);
      ghost var s4 := Model();
      Try(CloseSocket(Local), CloseSocket(Local) in failing);
      ghost var s5 := Model();
      Try(CloseSocket(I2P), CloseSocket(I2P) in failing);
      Properties.CloseAsAttempts(s0, s1, s2, s3, s4, s5, Model(), failing);
    }

    /** The `finally` block of `run`: close `s`, then `i2ps`, each in its own
        try block; the runner thread is then done. */
    method CloseSockets(fails: set<Side>)
      modifies this
      ensures Model() == Finally(old(Model()), fails)
    {
      ghost var goal := AttemptAll(Model(), FinallyOrder, FinallyFailing(fails));
      assert CloseSocket(Local) in FinallyFailing(fails) <==> Local in fails;
      assert CloseSocket(I2P) in FinallyFailing(fails) <==> I2P in fails;
      Try(CloseSocket(Local), Local in fails);
      assert goal == AttemptAll(Model(), FinallyOrder[1..], FinallyFailing(fails));
      Try(CloseSocket(I2P), I2P in fails);
      assert FinallyOrder[1..][1..] == [];
      phase := Done;
    }

    /** The initial writes of `run`: write and flush the initial I2P data,
        then write the initial socket data; `ok` is false once a call throws. */
    method WriteInitialData(f: StartFaults) returns (ok: bool)
      modifies this
      ensures (toI2P.output, fromI2P.output, ok) == InitialWrites(old(Model()), f)
      ensures Model() == old(Model()).(up := old(toI2P).(output := toI2P.output),
                                       down := old(fromI2P).(output := fromI2P.output))
    {
      ok := true;
      if initialI2PData.Some? {
        if f.i2pWriteFails || !(i2pOpen && toI2P.output.open) {
          ok := false;
        } else {
          toI2P := toI2P.(output := Put(toI2P.output, initialI2PData.value));
          if f.i2pFlushFails {
            ok := false;
          } else {
            toI2P := toI2P.(output := Flush(toI2P.output));
          }
        }
      }
      if ok && initialSocketData.Some? {
        if f.socketWriteFails || !(localOpen && fromI2P.output.open) {
          ok := false;
        } else {
          fromI2P := fromI2P.(output := Put(fromI2P.output, initialSocketData.value));
        }
      }
    }

    /** `run` up to the wait: the initial writes, then both forwarders start;
        an exception on the way goes to the `finally` block. */
    method Start(f: StartFaults)
      requires Valid()
      modifies this
      ensures Model() == Begin(old(Model()), f)
      ensures Valid()
    {
      ghost var s := Model();
      Properties.BeginKeepsInv(s, f);
      if phase != Created {
        return;
      }
      var ok := WriteInitialData(f);
      if ok {
        toI2P := toI2P.(thread := Looping);
        fromI2P := fromI2P.(thread := Looping);
        phase := Waiting;
      } else {
        CloseSockets(f.finallyFails);
      }
    }

    /** One pass of the forwarder loop: read into the buffer; on -1 or an
        exception leave the loop; otherwise write the bytes read, add their
        count to the direction's counter, stamp the activity if there were any,
        and flush if no more input is available before and after the pause. */
    method Iterate(d: Direction, t: Tick)
      modifies this
      ensures Model() == Step(old(Model()), d, t)
    {
      var p := Forwarder(d);
      if p.thread != Looping {
        return;
      }
      if !(IsOpen(Source(d)) && p.input.open) {
        p := p.(thread := Exiting);
      } else {
        match t.read
        case EndOfStream =>
          p := p.(thread := Exiting);
        case ReadFailed =>
          p := p.(thread := Exiting);
        case Data(b) =>
          p := p.(input := Consume(p.input, b));
          if !(IsOpen(Target(d)) && p.output.open) || t.writeFails {
            p := p.(thread := Exiting);
          } else {
            p := p.(output := Put(p.output, b));
            p := p.(count := p.count + |b|);
            if |b| > 0 {
              UpdateActivity(t.now);
            }
            if t.availableBefore.AvailableFailed? {
              p := p.(thread := Exiting);
            } else if t.availableBefore == Reports(0) {
              match t.availableAfter
              case AvailableFailed =>
                p := p.(thread := Exiting);
              case Reports(n) =>
                if n <= 0 {
                  if t.flushFails {
                    p := p.(thread := Exiting);
                  } else {
                    p := p.(output := Flush(p.output));
                  }
                }
            }
          }
      }
      SetForwarder(d, p);
    }

    /** The try blocks of a forwarder's teardown: the buffer goes back to the
        cache, the input close is attempted, then the output close unless `keep`. */
    method ReleaseAndClose(d: Direction, keep: bool, g: ExitFaults)
      modifies this
      ensures Model() == Properties.TeardownSteps(old(Model()), d, keep, g)
    {
      trace := trace + [ReleasedBuffer(d)];
      Try(CloseInput(Source(d)), g.inputCloseFails);
      if !keep {
        Try(CloseOutput(Target(d)), g.outputCloseFails);
      }
    }

    /** The forwarder thread ends and raises `finished`. */
    method MarkExited(d: Direction)
      modifies this
      ensures Model() == Properties.Retired(old(Model()), d)
    {
      SetForwarder(d, Forwarder(d).(thread := Exited));
      finished := true;
    }

    /** The `finally` block of `StreamForwarder.run`: release the buffer, close
        the input, close the output unless this is the fromI2P direction, a
        timeout job is present and nothing was received, then raise `finished`. */
    method Teardown(d: Direction, g: ExitFaults)
      modifies this
      ensures Model() == Exit(old(Model()), d, g)
    {
      ghost var s := Model();
      if Forwarder(d).thread != Exiting {
        return;
      }
      var keep := onTimeout && d == FromI2P && fromI2P.count <= 0;
      assert keep == KeepsOutputOpen(s, d);
      ReleaseAndClose(d, keep, g);
      MarkExited(d);
      Properties.ExitAsAttempts(s, d, g);
    }

    /** `StreamForwarder.run` over the reads `ticks` hands back: loop until a
        read ends the stream or fails, or the reads run out; a forwarder that
        left its loop then tears down. `n` is the number of passes. */
    method Forward(d: Direction, ticks: seq<Tick>, g: ExitFaults) returns (n: nat)
      requires Valid()
      modifies this
      ensures n <= |ticks|
      ensures n < |ticks| ==> PipeOf(Steps(old(Model()), d, ticks[..n]), d).thread != Looping
      ensures Model() == Exit(Steps(old(Model()), d, ticks[..n]), d, g)
      ensures Valid()
    {
      ghost var s := Model();
      n := 0;
      while n < |ticks| && Forwarder(d).thread == Looping
        invariant n <= |ticks|
        invariant Model() == Steps(s, d, ticks[..n])
        invariant Valid()
      {
        Properties.StepsSnoc(s, d, ticks[..n], ticks[n]);
        assert ticks[..n + 1] == ticks[..n] + [ticks[n]];
        Properties.StepKeepsInv(Model(), d, ticks[n]);
        Iterate(d, ticks[n]);
        n := n + 1;
      }
      Properties.ExitKeepsInv(Model(), d, g);
      Teardown(d, g);
    }

    /** `run` after the wait: once `finished` is set, run the onTimeout job if
        nothing was received, then `close` (skipped if the job threw), then the
        `finally` block. Before `finished` nothing happens. */
    method Wake(f: CloseFaults)
      requires Valid()
      modifies this
      ensures Model() == Complete(old(Model()), f)
      ensures Valid()
    {
      ghost var s := Model();
      if phase != Waiting || !finished {
        return;
      }
      var runsJob := onTimeout && fromI2P.count <= 0;
      assert runsJob == RunsTimeoutJob(s);
      var jobThrew := false;
      if runsJob {
        trace := trace + [RanTimeoutJob];
        jobThrew := f.jobThrows;
      }
      ghost var s1 := Model();
      assert s1 == if runsJob then s.(trace := s.trace + [RanTimeoutJob]) else s;
      if !jobThrew {
        Close(f.failing);
      }
      assert Model() == JobThenClose(s, runsJob, f);
      CloseSockets(f.finallyFails);
      Properties.CompleteKeepsInv(s, f);
    }

    /** `run` interrupted in the wait: the InterruptedException is caught and
        only the `finally` block runs; outside the wait nothing happens. */
    method Interrupted(fails: set<Side>)
      requires Valid()
      modifies this
      ensures Model() == Interrupt(old(Model()), fails)
      ensures Valid()
    {
      ghost var s := Model();
      Properties.InterruptKeepsInv(s, fails);
      if phase != Waiting {
        return;
      }
      CloseSockets(fails);
    }
  }
}

=== FILE: session.dfy ===
/** The lifecycle of one outproxy relay (I2PTunnelOutproxyRunner), as a
    sequential state machine.

    The runner thread and its two StreamForwarder threads are modelled as
    atomic steps that a scheduler may interleave in any order (an Action
    sequence). Whether a read, `available()`, write, flush or close returns
    normally, and what it returns, is handed in with each step (a Tick or a
    *Faults value). What a call that returns normally does is computed here,
    with the closing rule of java.net.Socket: closing either stream of a
    socket closes the socket. */
module Session {
  import opened Streams

  /** ToI2P copies the local socket's input to the outproxy socket (totalSent);
      FromI2P copies the outproxy socket's input to the local socket (totalReceived). */
  datatype Direction = ToI2P | FromI2P

  /** Local is the socket `s`, I2P the socket `i2ps`. */
  datatype Side = Local | I2P

  /** The socket a direction reads from. */
  function Source(d: Direction): Side
  {
    if d == ToI2P then Local else I2P
  }

  /** The socket a direction writes to. */
  function Target(d: Direction): Side
  {
    if d == ToI2P then I2P else Local
  }

  function Other(d: Direction): Direction
  {
    if d == ToI2P then FromI2P else ToI2P
  }

  /** The direction that reads a socket's input (`in` for Local, `i2pin` for I2P). */
  function ReaderOf(side: Side): Direction
  {
    if side == Local then ToI2P else FromI2P
  }

  /** The direction that writes a socket's output (`out` for Local, `i2pout` for I2P). */
  function WriterOf(side: Side): Direction
  {
    if side == Local then FromI2P else ToI2P
  }

  /** A forwarder thread: not yet started, in its read loop, out of the loop
      with its teardown pending, or finished. */
  datatype Thread = Unstarted | Looping | Exiting | Exited

  /** The runner thread: before `run`, blocked waiting for `finished`, or done. */
  datatype Phase = Created | Waiting | Done

  /** The side-effecting steps of the teardowns, each guarded by its own catch. */
  datatype Op =
    | FlushOutput(side: Side)
    | CloseInput(side: Side)
    | CloseOutput(side: Side)
    | CloseSocket(side: Side)

  /** What the lifecycle did, in order: a flush or close attempt and whether
      it succeeded, a run of the onTimeout job, a buffer going back to the cache. */
  datatype Event = Attempted(op: Op, ok: bool) | RanTimeoutJob | ReleasedBuffer(dir: Direction)

  /** Result of `in.read(buffer)`: some bytes, -1, or an IOException. */
  datatype ReadResult = Data(bytes: Chunk) | EndOfStream | ReadFailed

  /** Result of `in.available()`: a byte count, or an IOException. */
  datatype Availability = Reports(n: int) | AvailableFailed

  /** Everything the environment decides during one iteration of the forwarder
      loop: the read, whether the write throws, what `in.available()` does
      before and after the pause (the second call is made only when the first
      reports 0), whether the flush throws, and the clock. */
  datatype Tick = Tick(read: ReadResult, writeFails: bool, availableBefore: Availability,
                       availableAfter: Availability, flushFails: bool, now: nat)

  /** `available()` reports 0 before the pause and at most 0 after it: flush. */
  predicate FlushDue(t: Tick)
  {
    t.availableBefore == Reports(0) && t.availableAfter.Reports? && t.availableAfter.n <= 0
  }

  /** One of the `available()` calls that are made throws. */
  predicate AvailableThrows(t: Tick)
  {
    t.availableBefore.AvailableFailed?
    || (t.availableBefore == Reports(0) && t.availableAfter.AvailableFailed?)
  }

  /** Which calls throw while `run` writes the initial data, and which socket
      closes of its `finally` block throw. */
  datatype StartFaults = StartFaults(i2pWriteFails: bool, i2pFlushFails: bool,
                                     socketWriteFails: bool, finallyFails: set<Side>)

  /** Which closes throw in a forwarder's `finally` block. */
  datatype ExitFaults = ExitFaults(inputCloseFails: bool, outputCloseFails: bool)

  /** Whether the onTimeout job throws, which steps of `close` throw, and which
      socket closes of the `finally` block throw. */
  datatype CloseFaults = CloseFaults(jobThrows: bool, failing: set<Op>, finallyFails: set<Side>)

  /** What the constructor fixes. `hasTimeoutJob` stands for `onTimeout != null`. */
  datatype Config = Config(hasTimeoutJob: bool, initialI2PData: Option<Bytes>,
                           initialSocketData: Option<Bytes>, startedOn: int)

  /** One direction: its forwarder thread, its counter (totalSent or
      totalReceived), the input half it reads and the output half it writes. */
  datatype Pipe = Pipe(thread: Thread, count: int, input: Input, output: Output)

  /** The fields of one runner, its two directions, whether each socket is
      still open, and the trace of lifecycle events. */
  datatype Runner = Runner(
    config: Config,
    lastActivityOn: int,
    finished: bool,
    phase: Phase,
    up: Pipe,
    down: Pipe,
    localOpen: bool,
    i2pOpen: bool,
    trace: seq<Event>)

  function PipeOf(s: Runner, d: Direction): Pipe
  {
    if d == ToI2P then s.up else s.down
  }

  function WithPipe(s: Runner, d: Direction, p: Pipe): Runner
  {
    if d == ToI2P then s.(up := p) else s.(down := p)
  }

  function SocketOpen(s: Runner, side: Side): bool
  {
    if side == Local then s.localOpen else s.i2pOpen
  }

  function TotalSent(s: Runner): int
  {
    s.up.count
  }

  function TotalReceived(s: Runner): int
  {
    s.down.count
  }

  /** The initial data `run` writes ahead of a direction's forwarded bytes. */
  function Initial(c: Config, d: Direction): Bytes
  {
    if d == ToI2P then Given(c.initialI2PData) else Given(c.initialSocketData)
  }

  /** The onTimeout job runs: it is present and nothing has been received. */
  predicate RunsTimeoutJob(s: Runner)
  {
    s.config.hasTimeoutJob && TotalReceived(s) <= 0
  }

  /** The exception in the forwarder teardown: the fromI2P forwarder leaves the
      local output open when a timeout job is present and nothing was received. */
  function KeepsOutputOpen(s: Runner, d: Direction): (keep: bool)
    ensures keep <==> d == FromI2P && RunsTimeoutJob(s)
  {
    s.config.hasTimeoutJob && d == FromI2P && TotalReceived(s) <= 0
  }

  /** How often the onTimeout job appears in a trace. */
  function JobRuns(t: seq<Event>): nat
  {
    multiset(t)[RanTimeoutJob]
  }

  /** What only ever moves forward: `finished`, both counters, the trace, the
      runner's phase, a stamped `lastActivityOn`; and the constructor's values. */
  ghost predicate Grows(s: Runner, r: Runner)
  {
    && (s.finished ==> r.finished)
    && TotalSent(s) <= TotalSent(r)
    && TotalReceived(s) <= TotalReceived(r)
    && s.trace <= r.trace
    && (s.phase == Done ==> r.phase == Done)
    && (s.lastActivityOn != -1 ==> r.lastActivityOn != -1)
    && r.config == s.config
  }

  /** Nothing but flush marks, open flags, the phase and the trace differ: no
      byte moved, no counter or thread changed. */
  ghost predicate SameFlow(s: Runner, r: Runner)
  {
    && r.config == s.config
    && r.lastActivityOn == s.lastActivityOn
    && r.finished == s.finished
    && r.up.thread == s.up.thread && r.down.thread == s.down.thread
    && r.up.count == s.up.count && r.down.count == s.down.count
    && r.up.input.consumed == s.up.input.consumed && r.down.input.consumed == s.down.input.consumed
    && r.up.output.data == s.up.output.data && r.down.output.data == s.down.output.data
  }

  // ---------------------------------------------------------------------------
  // The steps
  // ---------------------------------------------------------------------------

  /** A direction before its forwarder starts, over freshly connected sockets. */
  const Fresh: Pipe := Pipe(Unstarted, 0, Input([], true), Output([], 0, true))

  /** The constructor: nothing moved yet, `lastActivityOn` is the sentinel -1. */
  function Init(now: nat, initialI2PData: Option<Bytes>, initialSocketData: Option<Bytes>,
                hasTimeoutJob: bool): (r: Runner)
    ensures Inv(r)
    ensures r.config == Config(hasTimeoutJob, initialI2PData, initialSocketData, now)
    ensures r.phase == Created && !r.finished && r.lastActivityOn == -1
    ensures TotalSent(r) == 0 && TotalReceived(r) == 0 && r.trace == []
    ensures CanRead(r, ToI2P) && CanWrite(r, ToI2P) && CanRead(r, FromI2P) && CanWrite(r, FromI2P)
  {
    Runner(Config(hasTimeoutJob, initialI2PData, initialSocketData, now), -1, false, Created,
           Fresh, Fresh, true, true, [])
  }

  /** `updateActivity`: stamp the time of the latest transfer. */
  function UpdateActivity(s: Runner, now: nat): (r: Runner)
    ensures r.lastActivityOn == now && r.(lastActivityOn := s.lastActivityOn) == s
  {
    s.(lastActivityOn := now)
  }

  /** Whether a step that does not throw closes the socket `side`: closing
      either stream of a java.net.Socket closes the socket itself. */
  predicate Closes(op: Op, side: Side)
  {
    !op.FlushOutput? && op.side == side
  }

  /** The runner with socket `side` closed. */
  function Shut(s: Runner, side: Side): (r: Runner)
    ensures r == s.(localOpen := r.localOpen, i2pOpen := r.i2pOpen)
    ensures r.localOpen == (s.localOpen && side != Local) && r.i2pOpen == (s.i2pOpen && side != I2P)
  {
    match side
    case Local => s.(localOpen := false)
    case I2P => s.(i2pOpen := false)
  }

  /** The direction whose stream a step names: the reader of an input, the
      writer of an output (a socket close names the writer, and leaves it alone). */
  function Handler(op: Op): Direction
  {
    if op.CloseInput? then ReaderOf(op.side) else WriterOf(op.side)
  }

  /** What a flush or close that does not throw does to the stream it names. */
  function TouchPipe(p: Pipe, op: Op): (q: Pipe)
    ensures q.thread == p.thread && q.count == p.count
    ensures q.input.consumed == p.input.consumed && q.output.data == p.output.data
    ensures op.FlushOutput? ==> q.output == Flush(p.output)
    ensures op.CloseInput? ==> !q.input.open
    ensures op.CloseOutput? ==> !q.output.open
  {
    match op
    case FlushOutput(_) => p.(output := Flush(p.output))
    case CloseInput(_) => p.(input := p.input.(open := false))
    case CloseOutput(_) => p.(output := p.output.(open := false))
    case CloseSocket(_) => p
  }

  /** The effect of a flush or close that does not throw: the stream it names
      is flushed or closed, and a close of either stream closes its socket. */
  function Perform(s: Runner, op: Op): (r: Runner)
    ensures SameFlow(s, r) && r.phase == s.phase && r.trace == s.trace
    ensures op.FlushOutput? ==> PipeOf(r, WriterOf(op.side)).output == Flush(PipeOf(s, WriterOf(op.side)).output)
    ensures op.CloseInput? ==> !PipeOf(r, ReaderOf(op.side)).input.open
    ensures op.CloseOutput? ==> !PipeOf(r, WriterOf(op.side)).output.open
    // nothing else is flushed or closed
    ensures PipeOf(r, Other(Handler(op))) == PipeOf(s, Other(Handler(op)))
    ensures !op.CloseInput? ==> PipeOf(r, Handler(op)).input == PipeOf(s, Handler(op)).input
    ensures op.CloseInput? ==> PipeOf(r, Handler(op)).output == PipeOf(s, Handler(op)).output
    ensures op.CloseSocket? ==> PipeOf(r, Handler(op)) == PipeOf(s, Handler(op))
    ensures r.localOpen == (s.localOpen && !Closes(op, Local))
    ensures r.i2pOpen == (s.i2pOpen && !Closes(op, I2P))
  {
    var d := Handler(op);
    var t := WithPipe(s, d, TouchPipe(PipeOf(s, d), op));
    if op.FlushOutput? then t else Shut(t, op.side)
  }

  /** One try-block of a teardown: the step either succeeds or its exception is
      swallowed; either way it is recorded, and the next step runs. */
  function Attempt(s: Runner, op: Op, fails: bool): (r: Runner)
    ensures r.trace == s.trace + [Attempted(op, !fails)]
    ensures SameFlow(s, r) && r.phase == s.phase
  {
    (if fails then s else Perform(s, op)).(trace := s.trace + [Attempted(op, !fails)])
  }

  /** The events of attempting `ops` in order, where exactly those in `failing` throw. */
  function Outcomes(ops: seq<Op>, failing: set<Op>): (t: seq<Event>)
    ensures |t| == |ops|
    ensures RanTimeoutJob !in t
  {
    seq(|ops|, i requires 0 <= i < |ops| => Attempted(ops[i], ops[i] !in failing))
  }

  /** Independently guarded steps, tried in order. */
  function AttemptAll(s: Runner, ops: seq<Op>, failing: set<Op>): (r: Runner)
    ensures r.trace == s.trace + Outcomes(ops, failing)
    ensures SameFlow(s, r) && r.phase == s.phase
    decreases |ops|
  {
    if ops == [] then s
    else
      var r := AttemptAll(Attempt(s, ops[0], ops[0] in failing), ops[1..], failing);
      assert Outcomes(ops, failing) == [Attempted(ops[0], ops[0] !in failing)] + Outcomes(ops[1..], failing);
      r
  }

  /** The order in which `close` tries its steps. */
  const CloseOrder: seq<Op> := [FlushOutput(Local), FlushOutput(I2P), CloseInput(Local),
                                CloseInput(I2P), CloseSocket(Local), CloseSocket(I2P)]

  /** The socket closes of `run`'s `finally` block. */
  const FinallyOrder: seq<Op> := [CloseSocket(Local), CloseSocket(I2P)]

  /** The failing set of `FinallyOrder` that `fails` names. */
  function FinallyFailing(fails: set<Side>): set<Op>
  {
    set side | side in fails :: CloseSocket(side)
  }

  /** `run`'s `finally` block: close both sockets, whatever happened before. */
  function Finally(s: Runner, fails: set<Side>): (r: Runner)
    ensures r.trace == s.trace + Outcomes(FinallyOrder, FinallyFailing(fails))
    ensures SameFlow(s, r) && r.phase == Done
  {
    AttemptAll(s, FinallyOrder, FinallyFailing(fails)).(phase := Done)
  }

  /** The initial writes of `run` on the I2P output and the socket output:
      write and flush the initial I2P data, then write the initial socket data,
      stopping at the first exception; `ok` says none was thrown. */
  function InitialWrites(s: Runner, f: StartFaults): (w: (Output, Output, bool))
    ensures w.0.open == s.up.output.open && w.1.open == s.down.output.open
    ensures w.2 ==>
              && w.0.data == s.up.output.data + Given(s.config.initialI2PData)
              && w.1.data == s.down.output.data + Given(s.config.initialSocketData)
              && (s.config.initialI2PData.Some? ==> w.0.flushed == |w.0.data|)
    // the writes succeed exactly when every write and flush that is made neither
    // meets a closed stream nor throws
    ensures w.2 <==>
              && (s.config.initialI2PData.Some? ==> CanWrite(s, ToI2P) && !f.i2pWriteFails && !f.i2pFlushFails)
              && (s.config.initialSocketData.Some? ==> CanWrite(s, FromI2P) && !f.socketWriteFails)
  {
    var i2pData := s.config.initialI2PData;
    var socketData := s.config.initialSocketData;
    var i2pOut, socketOut := s.up.output, s.down.output;
    if i2pData.Some? && (f.i2pWriteFails || !CanWrite(s, ToI2P)) then (i2pOut, socketOut, false)
    else
      var written := if i2pData.Some? then Put(i2pOut, i2pData.value) else i2pOut;
      if i2pData.Some? && f.i2pFlushFails then (written, socketOut, false)
      else
        var flushed := if i2pData.Some? then Flush(written) else written;
        if socketData.Some? && (f.socketWriteFails || !CanWrite(s, FromI2P)) then (flushed, socketOut, false)
        else (flushed, if socketData.Some? then Put(socketOut, socketData.value) else socketOut, true)
  }

  /** `run` up to the wait: the initial writes, then both forwarders start.
      An exception on the way goes straight to the `finally` block. */
  function Begin(s: Runner, f: StartFaults): (r: Runner)
    ensures s.phase != Created ==> r == s
    ensures Grows(s, r)
    // the initial data is not counted, and stamps no activity
    ensures r.up.count == s.up.count && r.down.count == s.down.count
    ensures r.lastActivityOn == s.lastActivityOn && r.finished == s.finished
    ensures r.up.input == s.up.input && r.down.input == s.down.input
    ensures s.phase == Created ==>
              && r.up.output == InitialWrites(s, f).0 && r.down.output == InitialWrites(s, f).1
              && (r.phase == Waiting <==> InitialWrites(s, f).2)
    // both forwarders start only after the initial writes
    ensures s.phase == Created && r.phase == Waiting ==>
              r.up.thread == Looping && r.down.thread == Looping && r.trace == s.trace
    // an exception on the way: no forwarder starts, only the `finally` block runs
    ensures s.phase == Created && r.phase != Waiting ==>
              && r.phase == Done && r.up.thread == s.up.thread && r.down.thread == s.down.thread
              && r.trace == s.trace + Outcomes(FinallyOrder, FinallyFailing(f.finallyFails))
  {
    if s.phase != Created then s
    else
      var (i2pOut, socketOut, ok) := InitialWrites(s, f);
      var w := s.(up := s.up.(output := i2pOut), down := s.down.(output := socketOut));
      if ok then w.(phase := Waiting, up := w.up.(thread := Looping), down := w.down.(thread := Looping))
      else Finally(w, f.finallyFails)
  }

  /** A direction can still read: its socket and its input half are open. */
  predicate CanRead(s: Runner, d: Direction)
  {
    SocketOpen(s, Source(d)) && PipeOf(s, d).input.open
  }

  /** A direction can still write: its socket and its output half are open. */
  predicate CanWrite(s: Runner, d: Direction)
  {
    SocketOpen(s, Target(d)) && PipeOf(s, d).output.open
  }

  /** One iteration of the loop of `StreamForwarder.run`, on the direction alone:
      read; on -1 or an exception leave the loop; otherwise write the chunk whole,
      add its length to the counter, and flush when no more input is available
      before and after the pause. `readable` and `writable` say whether the
      two sockets are open. */
  function Pump(p: Pipe, readable: bool, writable: bool, t: Tick): (q: Pipe)
    ensures p.thread != Looping ==> q == p
    ensures p.thread == Looping ==> q.thread == Looping || q.thread == Exiting
    ensures q.input.open == p.input.open && q.output.open == p.output.open
    // the counter moves exactly with the bytes that reach the destination
    ensures q.count - p.count == |q.output.data| - |p.output.data|
    // staying in the loop means one whole chunk was read and written
    ensures q.thread == Looping ==>
              && p.thread == Looping && t.read.Data?
              && q.output.data == p.output.data + t.read.bytes
              && q.input.consumed == p.input.consumed + t.read.bytes
    // -1 and read errors end the loop and change nothing else
    ensures p.thread == Looping && !t.read.Data? ==> q == p.(thread := Exiting)
    // a clean read on open sockets keeps the loop going
    ensures p.thread == Looping && readable && writable && p.input.open && p.output.open && Clean(t) ==>
              q.thread == Looping
    ensures q.count > p.count ==> t.read.Data? && |t.read.bytes| > 0
    // the coalescing flush: only when nothing is available before and after the pause
    ensures q.output.flushed != p.output.flushed ==> FlushDue(t)
    ensures q.thread == Looping && FlushDue(t) ==> q.output.flushed == |q.output.data|
    // a chunk read and written without error is appended, consumed and counted,
    // whatever `available()` and the flush do afterwards
    ensures p.thread == Looping && readable && writable && p.input.open && p.output.open
            && t.read.Data? && !t.writeFails ==>
              && q.output.data == p.output.data + t.read.bytes
              && q.input.consumed == p.input.consumed + t.read.bytes
              && q.count == p.count + |t.read.bytes|
    // a throwing `available()` ends the loop, after the write and the count, with no flush
    ensures p.thread == Looping && AvailableThrows(t) ==>
              q.thread == Exiting && q.output.flushed == p.output.flushed
  {
    if p.thread != Looping then p
    else if !(readable && p.input.open) then p.(thread := Exiting)
    else
      match t.read
      case EndOfStream => p.(thread := Exiting)
      case ReadFailed => p.(thread := Exiting)
      case Data(b) =>
        var p1 := p.(input := Consume(p.input, b));
        if !(writable && p1.output.open) || t.writeFails then p1.(thread := Exiting)
        else
          var p2 := p1.(output := Put(p1.output, b), count := p1.count + |b|);
          if AvailableThrows(t) then p2.(thread := Exiting)
          else if FlushDue(t) then
            if t.flushFails then p2.(thread := Exiting) else p2.(output := Flush(p2.output))
          else p2
  }

  /** One loop iteration of a forwarder, stamping `lastActivityOn` when the
      chunk it wrote was not empty. */
  function Step(s: Runner, d: Direction, t: Tick): (r: Runner)
    ensures Grows(s, r)
    ensures r.config == s.config && r.finished == s.finished && r.phase == s.phase && r.trace == s.trace
    ensures r.localOpen == s.localOpen && r.i2pOpen == s.i2pOpen
    ensures PipeOf(r, Other(d)) == PipeOf(s, Other(d))
    ensures PipeOf(r, d) == Pump(PipeOf(s, d), SocketOpen(s, Source(d)), SocketOpen(s, Target(d)), t)
    // lastActivityOn is stamped exactly when bytes move
    ensures r.lastActivityOn != s.lastActivityOn ==> t.read.Data? && |t.read.bytes| > 0 && r.lastActivityOn == t.now
    ensures r.lastActivityOn != s.lastActivityOn ==> PipeOf(r, d).count > PipeOf(s, d).count
    ensures PipeOf(r, d).count > PipeOf(s, d).count ==> r.lastActivityOn == t.now
  {
    var p := PipeOf(s, d);
    var q := Pump(p, SocketOpen(s, Source(d)), SocketOpen(s, Target(d)), t);
    var r := WithPipe(s, d, q);
    if q.count > p.count then UpdateActivity(r, t.now) else r
  }

  /** The forwarder's own part of its teardown: the input is closed unless
      closing it throws; the output likewise, unless `keep` leaves it open. */
  function Retire(p: Pipe, keep: bool, f: ExitFaults): (q: Pipe)
    ensures q.thread == Exited && q.count == p.count
    ensures q.input.consumed == p.input.consumed && q.output.data == p.output.data
    ensures q.input.open == (p.input.open && f.inputCloseFails)
    ensures q.output.open == (p.output.open && (keep || f.outputCloseFails))
  {
    Pipe(Exited, p.count,
         if f.inputCloseFails then p.input else p.input.(open := false),
         if keep || f.outputCloseFails then p.output else p.output.(open := false))
  }

  /** What a teardown records: the buffer goes back, then the input close, then
      the output close unless `keep`. */
  function TeardownEvents(d: Direction, keep: bool, f: ExitFaults): (t: seq<Event>)
    ensures |t| > 0 && t[0] == ReleasedBuffer(d)
    ensures RanTimeoutJob !in t
  {
    [ReleasedBuffer(d), Attempted(CloseInput(Source(d)), !f.inputCloseFails)]
    + (if keep then [] else [Attempted(CloseOutput(Target(d)), !f.outputCloseFails)])
  }

  /** The `finally` block of `StreamForwarder.run`: release the buffer, close the
      input, close the output unless the timeout exception applies, set `finished`.
      Closing a stream closes its socket too. */
  function Exit(s: Runner, d: Direction, f: ExitFaults): (r: Runner)
    ensures PipeOf(s, d).thread != Exiting ==> r == s
    ensures Grows(s, r)
    ensures r.phase == s.phase && r.lastActivityOn == s.lastActivityOn
    ensures PipeOf(r, Other(d)) == PipeOf(s, Other(d))
    ensures PipeOf(s, d).thread == Exiting ==>
              && r.finished
              && PipeOf(r, d) == Retire(PipeOf(s, d), KeepsOutputOpen(s, d), f)
              && r.trace == s.trace + TeardownEvents(d, KeepsOutputOpen(s, d), f)
              && SocketOpen(r, Source(d)) == (SocketOpen(s, Source(d)) && f.inputCloseFails)
              && SocketOpen(r, Target(d)) == (SocketOpen(s, Target(d)) && (KeepsOutputOpen(s, d) || f.outputCloseFails))
  {
    var p := PipeOf(s, d);
    if p.thread != Exiting then s
    else
      var keep := KeepsOutputOpen(s, d);
      var r0 := WithPipe(s, d, Retire(p, keep, f));
      var r1 := if f.inputCloseFails then r0 else Shut(r0, Source(d));
      var r2 := if keep || f.outputCloseFails then r1 else Shut(r1, Target(d));
      r2.(finished := true, trace := s.trace + TeardownEvents(d, keep, f))
  }

  /** `errorOccurred`: raise `finished` from outside. */
  function ErrorOccurred(s: Runner): (r: Runner)
    ensures r.finished
    ensures Grows(s, r)
    ensures r.(finished := s.finished) == s
  {
    s.(finished := true)
  }

  /** What the coordinator records after the wait, given whether the onTimeout
      job applies: the job, the attempts of `close` (unless the job threw), the
      attempts of the `finally` block. */
  function WakeEvents(runsJob: bool, f: CloseFaults): seq<Event>
  {
    JobAndCloseEvents(runsJob, f) + Outcomes(FinallyOrder, FinallyFailing(f.finallyFails))
  }

  /** The job (when `runsJob`) and the attempts of `close` (unless the job threw). */
  function JobAndCloseEvents(runsJob: bool, f: CloseFaults): seq<Event>
  {
    (if runsJob then [RanTimeoutJob] else [])
    + (if runsJob && f.jobThrows then [] else Outcomes(CloseOrder, f.failing))
  }

  /** The onTimeout job when `runsJob`, then `close` unless the job threw. */
  function JobThenClose(s: Runner, runsJob: bool, f: CloseFaults): (r: Runner)
    ensures r.trace == s.trace + JobAndCloseEvents(runsJob, f)
    ensures SameFlow(s, r) && r.phase == s.phase
  {
    var s1 := if runsJob then s.(trace := s.trace + [RanTimeoutJob]) else s;
    if runsJob && f.jobThrows then s1 else AttemptAll(s1, CloseOrder, f.failing)
  }

  /** `run` after the wait: nothing happens until `finished`; then the onTimeout
      job runs if it is present and nothing was received, then `close` tries each
      of its steps, then the `finally` block closes both sockets again. A job that
      throws skips `close` but not the `finally` block. */
  function Complete(s: Runner, f: CloseFaults): (r: Runner)
    // the wait: nothing proceeds until `finished`
    ensures s.phase != Waiting || !s.finished ==> r == s
    ensures s.phase == Waiting && s.finished ==>
              r.phase == Done && r.trace == s.trace + WakeEvents(RunsTimeoutJob(s), f)
    ensures SameFlow(s, r)
  {
    if s.phase != Waiting || !s.finished then s
    else
      var r := Finally(JobThenClose(s, RunsTimeoutJob(s), f), f.finallyFails);
      assert r.trace == s.trace + WakeEvents(RunsTimeoutJob(s), f);
      r
  }

  /** `run` interrupted in `finishLock.wait()`: the InterruptedException is
      caught, the onTimeout job and `close` are skipped, and only the `finally`
      block closes the sockets. It can happen whether or not `finished` is set. */
  function Interrupt(s: Runner, fails: set<Side>): (r: Runner)
    ensures s.phase != Waiting ==> r == s
    ensures s.phase == Waiting ==>
              r.phase == Done && r.trace == s.trace + Outcomes(FinallyOrder, FinallyFailing(fails))
    ensures SameFlow(s, r)
  {
    if s.phase != Waiting then s else Finally(s, fails)
  }

  // ---------------------------------------------------------------------------
  // Interleavings
  // ---------------------------------------------------------------------------

  /** One atomic step of one of the three threads, or a call of `errorOccurred`. */
  datatype Action =
    | Launch(start: StartFaults)
    | Forward(dir: Direction, tick: Tick)
    | Teardown(dir: Direction, exit: ExitFaults)
    | Error
    | Wake(close: CloseFaults)
    | Interrupted(finallyFails: set<Side>)

  function Apply(s: Runner, a: Action): (r: Runner)
    ensures Grows(s, r)
  {
    match a
    case Launch(f) => Begin(s, f)
    case Forward(d, t) => Step(s, d, t)
    case Teardown(d, f) => Exit(s, d, f)
    case Error => ErrorOccurred(s)
    case Wake(f) => Complete(s, f)
    case Interrupted(fails) => Interrupt(s, fails)
  }

  /** The state after a schedule of steps. Over every schedule, `finished`
      never reverts, the counters never decrease, the trace only grows, a done
      runner stays done, a stamped `lastActivityOn` is never reset, and the
      constructor's values never change. */
  function Run(s: Runner, actions: seq<Action>): (r: Runner)
    ensures Grows(s, r)
    decreases |actions|
  {
    if actions == [] then s
    else
      var s1 := Apply(s, actions[0]);
      var r := Run(s1, actions[1..]);
      assert s.trace <= s1.trace <= r.trace;
      r
  }

  /** One forwarder running on its own over a sequence of reads: it touches
      only its own direction, and neither the runner thread nor the sockets. */
  function Steps(s: Runner, d: Direction, ticks: seq<Tick>): (r: Runner)
    ensures Grows(s, r)
    ensures PipeOf(r, Other(d)) == PipeOf(s, Other(d))
    ensures r.finished == s.finished && r.phase == s.phase && r.trace == s.trace
    ensures r.localOpen == s.localOpen && r.i2pOpen == s.i2pOpen
    decreases |ticks|
  {
    if ticks == [] then s
    else
      var s1 := Step(s, d, ticks[0]);
      var r := Steps(s1, d, ticks[1..]);
      assert s.trace <= s1.trace <= r.trace;
      r
  }

  /** The bytes a sequence of reads hands back, in order. */
  function Delivered(ticks: seq<Tick>): Bytes
  {
    if ticks == [] then []
    else (if ticks[0].read.Data? then ticks[0].read.bytes else []) + Delivered(ticks[1..])
  }

  /** The time of the last read that handed back at least one byte, or `before`. */
  function LastStamp(ticks: seq<Tick>, before: int): int
  {
    if ticks == [] then before
    else LastStamp(ticks[1..], if ticks[0].read.Data? && |ticks[0].read.bytes| > 0 then ticks[0].now else before)
  }

  /** A read that hands back bytes and whose write, `available()` calls and
      flush do not throw. */
  predicate Clean(t: Tick)
  {
    t.read.Data? && !t.writeFails && !AvailableThrows(t) && !t.flushFails
  }

  // ---------------------------------------------------------------------------
  // The invariant every reachable state keeps
  // ---------------------------------------------------------------------------

  /** A direction's destination holds its initial data followed by exactly the
      first `count` bytes read from its source, in order; while the forwarder
      is still looping that is everything it has read. */
  ghost predicate Accounted(p: Pipe, initial: Bytes)
  {
    && 0 <= p.count
    && (p.thread == Unstarted ==> p.count == 0 && p.input.consumed == [])
    && (p.thread != Unstarted ==> p.count <= |p.input.consumed| && p.output.data == initial + p.input.consumed[..p.count])
    && (p.thread == Looping ==> p.count == |p.input.consumed|)
  }

  ghost predicate Inv(s: Runner)
  {
    && Accounted(s.up, Initial(s.config, ToI2P))
    && Accounted(s.down, Initial(s.config, FromI2P))
    && (s.lastActivityOn == -1 <==> TotalSent(s) == 0 && TotalReceived(s) == 0)
    && (s.phase == Created ==>
          s.up == Fresh && s.down == Fresh && s.localOpen && s.i2pOpen && s.trace == [])
    && (s.phase == Waiting ==> s.up.thread != Unstarted && s.down.thread != Unstarted)
    && (s.up.thread == Exited || s.down.thread == Exited ==> s.finished)
    && (RunsTimeoutJob(s) && s.phase != Done && s.up.thread != Exited ==> CanWrite(s, FromI2P))
    && JobRuns(s.trace) <= 1
    && (JobRuns(s.trace) == 1 ==> s.phase == Done && s.config.hasTimeoutJob)
  }
}

=== FILE: streams.dfy ===
/** Value model of the byte streams the relay moves data between. Each socket
    has an input half and an output half, each with its own open flag; closing
    either of them closes the socket too, and the socket can also be closed
    directly. */
module Streams {

  newtype byte = b: int | 0 <= b < 256

  type Bytes = seq<byte>

  /** Largest number of bytes streamed in one packet (I2PTunnelOutproxyRunner.MAX_PACKET_SIZE). */
  const MAX_PACKET_SIZE: nat := 1024 * 4

  /** Size of the buffer each forwarder reads into. */
  const NETWORK_BUFFER_SIZE: nat := MAX_PACKET_SIZE

  /** What one `read(buffer)` can hand back: at most one buffer full. */
  type Chunk = b: Bytes | |b| <= NETWORK_BUFFER_SIZE

  datatype Option<T> = None | Some(value: T)

  /** The bytes of an optional initial-data array; a null array writes nothing. */
  function Given(o: Option<Bytes>): Bytes
  {
    match o
    case None => []
    case Some(b) => b
  }

  /** The readable half of a socket: everything read out of it so far, and
      whether it is open. */
  datatype Input = Input(consumed: Bytes, open: bool)

  /** The writable half of a socket: everything written to it so far, how much
      of that an explicit flush has pushed through, and whether it is open. */
  datatype Output = Output(data: Bytes, flushed: nat, open: bool)

  /** `read` handed back `b`. */
  function Consume(i: Input, b: Bytes): Input
  {
    i.(consumed := i.consumed + b)
  }

  /** `write(b)` succeeded: the bytes are appended whole. */
  function Put(o: Output, b: Bytes): Output
  {
    o.(data := o.data + b)
  }

  /** `flush()` succeeded: everything written so far has been pushed through. */
  function Flush(o: Output): Output
  {
    o.(flushed := |o.data|)
  }
}
